=== FILE: README.md ===
# Flavortime presence and credit-sharing core, in Dafny

Flavortime is a desktop companion for Flavortown and Hackatime. It shows what
the user is working on as a Discord Rich Presence activity. It also credits the
user for the seconds they spend sharing that presence, and reports the total to
Flavortown in periodic heartbeats. This project models the sequential decision
logic behind that and proves properties of the model:

- **The presence connection manager** (`Presence.PresenceManager`). It is a
  class over `ready`, `stopping`, `unready_since`, `last_restart` and the
  presence record.
  - The transport callbacks and the end of the detached shutdown worker are
    explicit methods.
  - The workers that connect, publish, clear and shut down are recorded in a
    ghost log of intents.
  - The clock is a `now` parameter.
  - The invariant `Valid` says the published flag always equals the last
    publish-or-clear intent, and that no clear is issued without a publish
    before it.
- **The pure payload composers**: the state line, the referral URL, and the
  hour/minute split.
- **Sharing-time accrual and the heartbeat protocol** (`Commands`).
  - The remote service is an oracle (`Flavortown.Server`) giving the reply to
    the k-th session request and the k-th heartbeat.
  - `HeartbeatExchange` specifies one `send_flavortown_heartbeat` command. The
    method `AppState.SendFlavortownHeartbeat` is proved to follow it step by
    step, and the protocol properties are proved as lemmas about the
    specification.
- **Referral-code selection** (`Configuration`).
- **Latest-project selection and the project-details address** (`Hackatime`).
- **Response classification** for Flavortown and Pyramid, over an abstract
  response (`Http.Response`): status, status text, body text and decoded body.
- **The tray**: the hour format, and the mode-to-menu-text table of its
  polling loop.
- **The dashboard**: the dotted-key string lookup, and the pure status and
  format helpers of the web script.

Behaviour of the code that the model keeps as written:

- The presence session anchor implies a payload, but a payload does not imply
  an anchor (src/services/discord.rs:127-139):
  - `set_enabled(false)` drops the anchor although the payload may be
    non-empty.
  - `set_enabled(true)` does not stamp it again.

  `PresenceManager.Valid` therefore states "an anchor only with a payload".
- A ready connection has `unready_since == 0`, but a zero stamp does not mean
  the connection never left the ready state:
  - `stop` sets it to 0 on a connection that is not ready
    (src/services/discord.rs:141-154).
  - `reconnect_now` stamps it before `stop` clears it
    (src/services/discord.rs:196-206).

  The model keeps only "ready implies `unready_since == 0`".
- The first heartbeat after a session is created carries the total read at the
  start of the command. That total was read before `rotate_flavortime_fingerprint`
  reset the held total to zero. Only the retry after a rejection re-reads the
  total (src/app/commands.rs:352-372, 375-376).

The command module and the service module name the same thing differently:
src/app/commands.rs speaks of a fingerprint (`create_fingerprint`,
`InvalidFingerprint`), src/services/flavortown.rs of a session id
(`create_session`, `InvalidSessionId`). The model treats them as one thing.
Session requests carry the platform and version metadata that
`send_heartbeat` takes.

`update` takes four arguments, but `sync_discord` passes three. The model
passes `show_referral_code` as the fourth, `show_referral_button`.

## Model

| member | source | states |
|---|---|---|
| Text.NonEmptyTrimmed | src/app/commands.rs:683-688 | `trimmed` (and `non_empty_trimmed` in discord.rs): Some exactly for a present value that is not all whitespace, and then the trimmed, non-empty text |
| Configuration.FirstCustomIndex | src/data/config.rs:103-105 | the index found is the first code of type "custom"; None exactly when no code has that type |
| Configuration.PreferredCode | src/data/config.rs:102-108 | None exactly for an empty list; with a custom code, the code of the first custom entry; with none, the first code; always an available code |
| Configuration.EnsureSelection | src/data/config.rs:110-130 | an available selection is kept; any other selection is replaced by `PreferredCode`; the result is None exactly when there are no codes, and is otherwise available; "changed" is true exactly when the value changed |
| Configuration.EnsureSelectionIdempotent | src/data/config.rs:110-130 | a second ensure right after the first changes nothing and reports false |
| Configuration.DisplayCode | src/data/config.rs:132-144 | None when the code is hidden; otherwise the trimmed non-blank custom code, else the selection, else the preferred code |
| Configuration.DisplayedCodeIsAvailable | src/data/config.rs:132-144 | after an ensure and without a custom code, a code is shown exactly when codes exist, and it is an available one |
| Configuration.Config.constructor | src/data/config.rs:34-50 | the default values: no mode, no credentials or codes, both show flags on, enabled, not launched at startup, total 0 |
| Configuration.Config.Reset | src/data/config.rs:80-82 | every field is back to its default |
| Configuration.Config.EnsureSelectedCode | src/data/config.rs:110-130 | the new selection and the returned flag are those of `EnsureSelection` on the old selection |
| Presence.RecoveryDue | src/services/discord.rs:168-186 | a restart is due exactly when enabled, not stopping, not ready, unready since a non-zero time at least 18 s ago, and last restarted at least 25 s ago (saturating) |
| Presence.RecoveryBoundary | src/services/discord.rs:179-186 | seventeen seconds unready is not enough and eighteen is |
| Presence.RoundedMinutes | src/services/discord.rs:373 | the nearest whole minute of hours·60, 0 for non-positive input, `u32::MAX` from `u32::MAX` minutes up |
| Presence.SplitHoursMinutes | src/services/discord.rs:372-375 | hours·60 + minutes is the rounded minute count and minutes < 60 |
| Presence.FmtHoursFramesShortForm | src/services/discord.rs:348-370 | `fmt_hours` is the short "Hh Mm"/"Mm" form between the locale prefix and suffix |
| Presence.NinetyMinutesText | src/services/discord.rs:348-355 | 1.5 hours reads "1h 30m" |
| Presence.WidgetStateLine | src/services/discord.rs:238-253 | in any locale, project "Widget" at 1.5 h gives the project prefix and "Widget (1h 30m spent)" |
| Presence.ReferralUrlExtendsBareUrl | src/services/discord.rs:231-237 | the button URL with a code is the bare https URL plus "/" and the trimmed code |
| Presence.BlankHostFallsBack | src/services/discord.rs:231-232 | a blank locale host gives "https://flavortown.hackclub.com" |
| Presence.TransientMarkerAnywhere | src/services/discord.rs:383-387 | an event holding "Error parsing Json", "JsonError" or "missing field `cmd`" anywhere is transient and dropped |
| Presence.PayloadIgnoresBookkeeping | src/services/discord.rs:332-339 | whether there is a payload does not depend on the anchor or the published flag |
| Presence.ComposedActivityFields | src/services/discord.rs:230-280 | first line the trimmed tagline or the idle label; second the project line; a time line only with a tagline and positive hours; start is the anchor; a button exactly when shown, to the referral URL |
| Presence.EmptyPayloadIsIdleActivity | src/services/discord.rs:230-339 | without a payload the activity is the idle label twice, the brand label, no time line and no button |
| Presence.NextSessionStart | src/services/discord.rs:119-123 | the anchor is present exactly with a payload; an existing anchor is kept; a missing one is stamped now |
| Presence.PresenceManager.constructor | src/services/discord.rs:38-51 | not ready, not stopping, both stamps 0, enabled with nothing else set, no intents |
| Presence.PresenceManager.IsActive | src/services/discord.rs:160-162 | active exactly when enabled, ready and there is a payload |
| Presence.PresenceManager.Start | src/services/discord.rs:53-55 | not ready, unready since now, one connect intent, nothing else changed |
| Presence.PresenceManager.OnReady | src/services/discord.rs:60-63 | ready, not stopping, unready stamp 0 |
| Presence.PresenceManager.OnDisconnected | src/services/discord.rs:72-76 | not ready; the unready stamp becomes now only if it was ready |
| Presence.PresenceManager.OnError | src/services/discord.rs:87-100 | as a disconnect, and the error is reported exactly when not stopping and not an I/O or transient error |
| Presence.PresenceManager.OnShutdownComplete | src/services/discord.rs:150-153 | stopping is cleared; nothing else changes |
| Presence.PresenceManager.Stop | src/services/discord.rs:141-154 | a no-op while stopping; otherwise stopping, not ready, stamp 0 and exactly one shutdown intent |
| Presence.PresenceManager.ClearActivity | src/services/discord.rs:222-228 | the record's published flag is lowered, and a clear is logged exactly when something was published |
| Presence.PresenceManager.PublishActivity | src/services/discord.rs:230-322 | the composed activity of the record is logged as published and the flag raised |
| Presence.PresenceManager.SyncPayload | src/services/discord.rs:219-323 | nothing while disabled or unready; without a payload a clear only if published, then unpublished; with one a publish of the composed activity, then published |
| Presence.PresenceManager.MaybeRecover | src/services/discord.rs:168-194 | when `RecoveryDue`: shutdown then connect, both stamps now, stopping, record unchanged; otherwise nothing changes |
| Presence.PresenceManager.Sync | src/services/discord.rs:217-228 | a recovery when due, else the publish/clear decision |
| Presence.PresenceManager.ReconnectNow | src/services/discord.rs:196-206 | a no-op while stopping; otherwise a restart stamped now |
| Presence.PresenceManager.ForceRefresh | src/services/discord.rs:208-215 | a no-op when disabled or stopping; otherwise a restart stamped now |
| Presence.PresenceManager.Stage | src/services/discord.rs:115-123 | the four fields replaced; the anchor by `NextSessionStart`; the invariant kept |
| Presence.PresenceManager.Update | src/services/discord.rs:108-125 | the four fields replaced, the anchor by `NextSessionStart`, then a recovery or the publish/clear decision on that record |
| Presence.PresenceManager.SetEnabled | src/services/discord.rs:127-139 | disabling drops the anchor and clears a published activity exactly once; enabling recovers when due, else resyncs |
| Flavortown.AuthorizationUsesTrimmedKey | src/services/flavortown.rs:55-59 | the bearer header of a key equals that of its trimmed form |
| Flavortown.RequestsUseTrimmedKey | src/services/flavortown.rs:123-149 | all four requests are identical for a key and its trimmed form |
| Flavortown.ClassifyHeartbeat | src/services/flavortown.rs:151-168 | 404 exactly gives `InvalidSessionId`; any other failure status is "Heartbeat failed: <status> <body>"; a transport or decode error passes through; a success without a count is zero users |
| Flavortown.CloseClassifiesLikeHeartbeat | src/services/flavortown.rs:196-211 | close and heartbeat agree on every reply: error iff error, unknown session iff unknown session, the same count, and the same error text except the prefix |
| Flavortown.ClassifySession | src/services/flavortown.rs:106-120 | a transport error passes through; a failure status is "Session creation failed: <status> <body>"; a decode error passes through; a decoded success with a non-blank id gives that id trimmed; an id only from a decoded success that holds one |
| Flavortown.SessionIdIsTrimmed | src/services/flavortown.rs:117-120 | the id is the trimmed reply id and not blank; an absent or blank id is "Flavortown did not return a session ID" |
| Flavortown.ClassifyCurrentUser | src/services/flavortown.rs:64-78 | a transport error passes through; a failure status is "Flavortown login failed: <status> <body>"; a decode error passes through; a decoded success with a non-blank Slack id gives it trimmed; an id only from a decoded success that holds one |
| Flavortown.SlackIdIsTrimmed | src/services/flavortown.rs:74-78 | the Slack id is trimmed and not blank; an absent or blank one is "No Slack ID associated with this Flavortown account" |
| Pyramid.CompleteCodes | src/services/pyramid.rs:50-59 | exactly the entries with both a code and a type are kept, never more than given |
| Pyramid.CompleteCodesAppend | src/services/pyramid.rs:50-59 | the filter distributes over concatenation, so input order is kept |
| Pyramid.FetchCodes | src/services/pyramid.rs:27-59 | a transport error and a decode error pass through; a failure status is "Referral lookup failed: <status>"; "User not found" is an empty list; another error is returned; otherwise the complete entries |
| Hackatime.Parsed | src/services/hackatime.rs:73-77 | a timestamp exactly for a field that parses |
| Hackatime.ProjectTimestamp | src/services/hackatime.rs:60-71 | the most recent heartbeat when it parses, else the last heartbeat |
| Hackatime.Candidate | src/services/hackatime.rs:48-55 | a project competes exactly with a usable timestamp not below the minimum |
| Hackatime.LatestIndex | src/services/hackatime.rs:46-57 | None iff no candidate; otherwise a candidate with the greatest timestamp, later than every candidate after it (the last maximum) |
| Hackatime.LatestProject | src/services/hackatime.rs:42-58 | None iff no candidate; otherwise the name and timestamp of a candidate, at least the minimum, and not below any candidate |
| Hackatime.LatestProjectIgnoresOlder | src/services/hackatime.rs:42-58 | appending an older or unusable project does not change the result |
| Hackatime.LatestProjectPrefersLaterTie | src/services/hackatime.rs:57 | appending a project that ties with the winner makes it the winner |
| Hackatime.UrlEncode | src/services/hackatime.rs:93 | output holds only unreserved characters, '%' and upper-case hex; unreserved input is unchanged |
| Hackatime.DecodePercentBytes | src/services/hackatime.rs:93 | decoding the `%XX` escapes of any bytes, followed by any text, gives back those bytes first |
| Hackatime.DecodeEncode | src/services/hackatime.rs:93 | percent-decoding the encoded text gives exactly the UTF-8 bytes of the input, so nothing is lost |
| Hackatime.EncodedHasNoDelimiters | src/services/hackatime.rs:89-104 | encoded text holds no '&', '?', '/', '=' or '#' |
| Hackatime.BoundParts | src/services/hackatime.rs:98-101 | two parameters for a present, non-blank bound, none otherwise, none holding '&' |
| Hackatime.QueryParts | src/services/hackatime.rs:97-105 | two parameters per present bound, none holding '&' |
| Hackatime.QuerySuffix | src/services/hackatime.rs:106-109 | empty exactly when there are no parts; otherwise it starts with '?' |
| Hackatime.QueryRoundTrip | src/services/hackatime.rs:106-109 | splitting the query after '?' on '&' gives back exactly the parts |
| Hackatime.PushBound | src/services/hackatime.rs:98-105 | one bound's two pushes append exactly `BoundParts` |
| Hackatime.CollectQueryParts | src/services/hackatime.rs:97-105 | the pushes produce `QueryParts` |
| Hackatime.ProjectsDetailsUrl | src/services/hackatime.rs:85-109 | "Missing Slack ID" exactly for a blank username; otherwise the encoded trimmed-user path plus the query suffix |
| Hackatime.UserIsOnePathSegment | src/services/hackatime.rs:89-93 | the details path is the base, "/api/v1/users/", one segment free of '/', '?' and '#', then "/projects/details" |
| Commands.SatAdd | src/app/commands.rs:494-495 | the exact sum when it fits in u64, else `u64::MAX`; never below the old total |
| Commands.TickCredit | src/app/commands.rs:489-497 | at most 120; positive only when active with a previous tick; then min(now − previous, 120) |
| Commands.CreditsBoundedByElapsed | src/app/commands.rs:486-502 | over polls at non-decreasing times the credits never exceed the time between the first and last poll |
| Commands.IsIdle | src/app/commands.rs:519-523 | idle iff no latest project or its heartbeat is more than 180 s old |
| Commands.TotalSeconds | src/app/commands.rs:513-516 | the clamped sum is never negative |
| Commands.TotalSecondsCoversEach | src/app/commands.rs:513-516 | no project's clamped seconds exceed the total |
| Commands.Snapshot | src/app/commands.rs:504-535 | hours = seconds/3600; a current project exactly when a latest project exists in the window; not idle implies a current project |
| Commands.CreditNeedsRecentHeartbeat | src/app/commands.rs:327-340 | a credited poll had the app enabled, something shared, a ready connection, and a latest project in the window at most 180 s before it |
| Commands.DiscordStatusOf | src/app/commands.rs:623-630 | active is reported only when enabled; other fields passed through |
| Commands.OpenExternalTarget | src/app/commands.rs:67-71 | accepted iff the trimmed URL starts with https:// or http://; the trimmed URL is opened; otherwise "Invalid URL" |
| Commands.OpenExternalTargetStable | src/app/commands.rs:67-71 | an accepted target is accepted again unchanged |
| Commands.ModeName | src/app/commands.rs:675-681 | the name is one of "none", "hackatime", "adult" |
| Commands.ModeNameInjective | src/app/commands.rs:675-681 | different modes have different names |
| Commands.Required | src/app/commands.rs:700-702 | the value when present, else the given message as the error |
| Commands.RotateSpec | src/app/commands.rs:545-550 | a new id resets the session (id held, total 0, no last tick); a failure changes nothing |
| Commands.EnsureSpec | src/app/commands.rs:537-543 | a held fingerprint is returned with no request; otherwise one create request and a rotation |
| Commands.RetrySpec | src/app/commands.rs:374-385 | the retry begins with a create request and sends at most one more |
| Commands.HeartbeatExchange | src/app/commands.rs:351-368 | no request is sent iff not in Hackatime mode with a non-blank key; then the answer is 0 and nothing changes |
| Commands.SignedInExchange | src/app/commands.rs:370-387 | one to four requests; the first is the heartbeat with the held fingerprint and starting total, or a create request when none is held |
| Commands.RetrySends | src/app/commands.rs:374-385 | the retry sends a heartbeat exactly when its rotation succeeds |
| Commands.HeartbeatSends | src/app/commands.rs:370-387 | the exact number of heartbeats: 0 if no fingerprint, 1 unless rejected, 1 if the rotation fails, else 2 |
| Commands.FirstSendCounted | src/app/commands.rs:370-387 | once a fingerprint is had, the first heartbeat adds one send and a retry after a successful rotation adds one more |
| Commands.HeartbeatSendsAtMostTwice | src/app/commands.rs:370-387 | never more than two heartbeats and four requests per command |
| Commands.HeartbeatReusesFingerprint | src/app/commands.rs:537-540 | a held fingerprint is sent in the first request, with the starting total |
| Commands.HeartbeatFirstSendCarriesStartingTotal | src/app/commands.rs:352-372 | without a fingerprint: a create, then a heartbeat with the new id and the starting total |
| Commands.HeartbeatRotationResetsSession | src/app/commands.rs:545-561 | the command leaves the state unchanged, or a fingerprint with total 0 and no last tick |
| Commands.HeartbeatRetryCarriesZero | src/app/commands.rs:374-378 | when two heartbeats go out, the last carries total 0 and the fingerprint left held |
| Commands.HeartbeatSecondRejectionFails | src/app/commands.rs:380-382 | two 404s in a row end in "Flavortown rejected fingerprint after rotation" after exactly two sends |
| Commands.AppState.constructor | src/app/state.rs:19-34 | a leftover total is zeroed; no manager, fingerprint or last tick |
| Commands.AppState.AccumulateSharingSeconds | src/app/commands.rs:486-502 | the total becomes `SatAdd(old, TickCredit(...))` and never decreases; the last tick is now; the total is returned |
| Commands.AppState.PollConnection | src/app/commands.rs:328-337 | false without a manager; otherwise the manager is restarted if recovery was due, else reconciled, and the result is its readiness |
| Commands.AppState.GetHackatimeData | src/app/commands.rs:308-347 | "Not logged in with Flavortime" without a Slack id or outside Hackatime mode, and a fetch error passes through, both with nothing credited; otherwise the poll is credited `TickCredit` under `SessionActive` of the flags, the manager's readiness after resync and the idle flag, and the snapshot is returned with the new total; the manager, when present, is restarted if recovery was due and otherwise reconciled, and is untouched on the error paths |
| Commands.AppState.ResetSharingSession | src/app/commands.rs:552-561 | total 0 and no last tick |
| Commands.AppState.RotateFingerprint | src/app/commands.rs:545-550 | result and new state are those of `RotateSpec`; one create request |
| Commands.AppState.EnsureFingerprint | src/app/commands.rs:537-543 | result, new state and requests are those of `EnsureSpec` |
| Commands.AppState.SendFlavortownHeartbeat | src/app/commands.rs:351-388 | result, new state and request sequence are those of `HeartbeatExchange` |
| Commands.AppState.SendSignedIn | src/app/commands.rs:370-387 | with usable credentials, result, new state and requests are those of `SignedInExchange` |
| Commands.AppState.EnsureDiscordClient | src/app/commands.rs:577-585 | an existing manager is kept; otherwise a fresh one, started now |
| Commands.AppState.PollDiscordStatus | src/app/commands.rs:597-613 | (false, false) without a manager; otherwise the manager's readiness and activity after the resync |
| Commands.AppState.GetDiscordStatus | src/app/commands.rs:77-90 | enabled is the configuration's flag; active implies connected and enabled; a manager exists while enabled |
| Commands.AppState.SyncDiscord | src/app/commands.rs:563-575 | a manager exists while enabled; its record carries the enabled flag, no project or hours, and the displayed code |
| Commands.AppState.Logout | src/app/commands.rs:216-231 | configuration at defaults; the manager stopped (one shutdown) and dropped; fingerprint and last tick cleared |
| Commands.AppState.LoginAsAdult | src/app/commands.rs:190-213 | adult mode without credentials, codes or time tracking; sharing session reset; the manager synced when present |
| Tray.WholeMinutes | src/tray.rs:18 | whole minutes rounded down, 0 for non-positive seconds, saturating at `u32::MAX` |
| Tray.MinutesTextReadsBack | src/tray.rs:19-24 | a minute count prints as "Mm" under an hour, else "Hh Mm", and the printed numbers read back as the count |
| Tray.FormatHours | src/tray.rs:17-25 | "Mm today" under an hour of whole minutes, else "Hh Mm today" with the quotient and remainder by 60 |
| Tray.FormatHoursReadsBack | src/tray.rs:17-25 | the printed hour and minute numbers read back as the whole-minute count |
| Tray.FormatHoursClampsNegative | src/tray.rs:18 | negative seconds read as zero |
| Tray.ProjectText | src/tray.rs:158-160 | "Working on <project>" for a latest project, else "No active project" |
| Tray.TrayStatus.constructor | src/tray.rs:133-134 | "No data yet" and "No active project" |
| Tray.TrayStatus.ResetStatusTexts | src/tray.rs:40-43 | both remembered texts back to "No data yet" and "No active project" |
| Tray.TrayStatus.Poll | src/tray.rs:136-195 | in Hackatime mode with a Slack id a fetch updates both texts and a failed fetch keeps them; every other mode resets them and shows its table row; 2 s retry before the state exists, else 20 s |
| I18n.ArrayIndex | web/i18n.js:10 | an array element is found exactly by its decimal index |
| I18n.Member | web/i18n.js:10 | on an object, defined exactly for an own key, with that member; on an array, `length` is the item count, a canonical decimal index names that item, and anything else is undefined |
| I18n.DescendAppend | web/i18n.js:5-11 | walking a path in two pieces equals walking it at once |
| I18n.ResolveTopLevel | web/i18n.js:3-13 | a dot-free key names a top-level string |
| I18n.ResolveNested | web/i18n.js:3-13 | "a.b" names string b inside object a |
| I18n.ResolveStopsAtString | web/i18n.js:7-9 | a walk passing through a string before the last part gives the key |
| I18n.ResolveEmptyTable | web/i18n.js:1-13 | with the initial empty table every key resolves to itself |
| I18n.Localizer.constructor | web/i18n.js:1 | the table starts as the empty object |
| I18n.Localizer.Resolve | web/i18n.js:3-13 | the loop returns `ResolveIn` of the table: the string at the dotted path, else the key |
| I18n.Localizer.T | web/i18n.js:15-17 | `t` returns the same as `resolve` |
| WebApp.JsRound | web/app.js:1023 | the nearest integer, halves up |
| WebApp.JsRem60 | web/app.js:1025 | the remainder has the dividend's sign |
| WebApp.FormatHours | web/app.js:1022-1027 | for non-negative totals within `u32` minutes the dashboard text equals the presence line's short form |
| WebApp.FormatHoursNegative | web/app.js:1022-1027 | −0.5 h and −1.5 h both read "-30m", where the presence line reads "0m" |
| WebApp.PickDefaultReferralCode | web/app.js:911-918 | null exactly for no codes; with a custom code, the code of the first custom entry; with none, the first code |
| WebApp.PickDefaultIsPreferredCode | web/app.js:911-918 | the dashboard default is the backend's `preferred_code` |
| WebApp.ReferralSelection | web/app.js:927-949 | none without codes; an available saved code is kept; otherwise the default of `PickDefaultReferralCode`; the result is always available |
| WebApp.ReferralSelectionMatchesBackend | web/app.js:945-949 | the list selects the code `ensure_selected_code` keeps |
| WebApp.RpcBadge | web/app.js:647-663 | stalled gives "rpc.inactive"; otherwise active gives "rpc.active", disabled "rpc.disabled", connected but idle "rpc.inactive"; the active class iff active and not stalled |
| WebApp.BadgeAgreesWithWaiting | web/app.js:674-676 | the badge says waiting iff `isRpcWaiting`; active class iff label active |
| WebApp.FallbackRpcStatus | web/app.js:727-735 | never connected or active; stalled iff requested and last enabled |
| WebApp.FallbackBadge | web/app.js:727-735 | the fallback badge is never active: disabled, inactive when stalled, else waiting |
| WebApp.FormatLoginError | web/app.js:536-542 | the base alone without a non-empty detail, else "base: detail"; always starts with the base |

## Left out

- Threads, atomics and locks. Each command and callback runs to completion; the detached workers are intents in a ghost log, and shutdown completion is an explicit event.
- The Discord client library and the activity builder; only the abstract activity record and the intents remain.
- HTTP, JSON decoding, RFC 3339 parsing and the system clock. Replies, decoded bodies, parsed stamps and `now` are inputs.
- Floating point. `f64` hours and seconds are exact reals; NaN, infinities and rounding of sums are not modelled.
- Configuration file load/save and its backup copy; the locale and runtime tables (the presence text is a record parameter, `Presence.DefaultText` holds the built-in strings).
- Flatpak detection (filesystem and subprocess): `GetDiscordStatus` takes it as a parameter.
- The Hackatime fetch inside `get_hackatime_data` (`fetch_hackatime_snapshot`'s requests): `GetHackatimeData` takes its outcome as a parameter, and `Commands.Snapshot` states how a successful one is built from the projects.
- Tauri commands outside this core (`login_with_flavortown_api_key`, `get_status`, the `set_*` commands, `init_discord`, `update_discord_presence`, `refresh_referral_codes`, the updater) and the window, tray-menu and app builder APIs.
- `close_session` as a request sequence: only its reply classification is modelled; `close_flavortime_session` is not part of this model.
- In the dashboard: DOM rendering, timers, polling and `loadLocale`/`applyStaticStrings`.
- I18n.Member: inherited properties of JavaScript objects and arrays are not modelled; own keys, array indices and `length` are.
- WebApp.FormatLoginError: an error whose `message` is a non-string value is treated as having no detail.
- Commands.AppState.PollDiscordStatus: the resulting manager state is stated through `Valid` and the returned readiness, not as a full restatement of the recovery and resync steps.
- Commands.AppState.GetDiscordStatus: states the reported fields and the manager's existence, not the manager's new state.
- Commands.AppState.SyncDiscord: states the manager's presence record fields it sets, not its connection fields or intents.
- Commands.AppState.LoginAsAdult: states the configuration, sharing state and synced record, not the manager's connection fields.
- Commands.AppState.Logout: the manager's state is stated through the old object; the second `stop` from dropping it is a no-op.
- Flavortown.ClassifyClose: has no contract of its own; `Flavortown.CloseClassifiesLikeHeartbeat` states it against the heartbeat classification.

=== FILE: commands.dfy ===
/** The application commands that own shared state: the sharing-time
    accrual, the fingerprint (session id) and heartbeat protocol with the
    Flavortown service, the lifetime of the presence manager, and the small
    pure helpers the commands use. Locks are not modelled: each command runs
    to completion before the next. Time is the `now` parameter; the remote
    services are the oracle `Server` and explicit replies. */
module Commands {
  import opened Wrappers
  import opened Text
  import opened Http
  import opened Configuration
  import opened Flavortown
  import opened Hackatime
  import P = Presence

  // Sharing-time accrual.

  function Min(a: nat, b: nat): nat {
    if a <= b then a else b
  }

  /** `u64::saturating_add`: the exact sum when it fits, `u64::MAX` otherwise. */
  function SatAdd(a: u64, b: nat): (r: u64)
    ensures a <= r
    ensures r as int <= a as int + b
    ensures r == U64Max || r as int == a as int + b
  {
    if a as int + b <= U64Max as int then (a as int + b) as u64 else U64Max
  }

  /** No single poll credits more than two minutes. */
  const MaxTickSeconds: nat := 120

  /** The seconds one poll credits: the time since the previous poll, capped
      at two minutes, and only while the session is active. The first poll
      after a reset credits nothing. */
  function TickCredit(previous: Option<nat>, now: nat, sessionActive: bool): (credit: nat)
    ensures credit <= MaxTickSeconds
    ensures credit > 0 ==> sessionActive && previous.Some? && previous.value + credit <= now
    ensures sessionActive && previous.Some? && previous.value <= now ==>
              credit == Min(now - previous.value, MaxTickSeconds)
  {
    match previous
    case None => 0
    case Some(p) =>
      var elapsed := Min(P.SatSub(now, p), MaxTickSeconds);
      if elapsed > 0 && sessionActive then elapsed else 0
  }

  /** The seconds credited by polls at `ticks[1..]`, each against the poll
      before it, with `active[i]` the session state at poll `i`. */
  function Credits(ticks: seq<nat>, active: seq<bool>): nat
    requires |active| == |ticks|
  {
    if |ticks| < 2 then 0
    else
      var k := |ticks| - 1;
      Credits(ticks[..k], active[..k]) + TickCredit(Some(ticks[k - 1]), ticks[k], active[k])
  }

  /** Accrual never outruns the clock: over polls at non-decreasing times
      the credited seconds are at most the time between the first and the
      last poll. */
  lemma {:induction false} CreditsBoundedByElapsed(ticks: seq<nat>, active: seq<bool>)
    requires |active| == |ticks| >= 1
    requires forall i, j :: 0 <= i <= j < |ticks| ==> ticks[i] <= ticks[j]
    ensures Credits(ticks, active) <= ticks[|ticks| - 1] - ticks[0]
  {
    if |ticks| >= 2 {
      var k := |ticks| - 1;
      CreditsBoundedByElapsed(ticks[..k], active[..k]);
      assert ticks[k - 1] <= ticks[k];
    }
  }

  /** A poll counts as active sharing when the app is enabled, something
      is shared, the presence connection is ready and Hackatime is not idle. */
  predicate SessionActive(appEnabled: bool, showTimeTracking: bool, showReferralCode: bool,
                          discordConnected: bool, heartbeatIdle: bool) {
    appEnabled && (showTimeTracking || showReferralCode) && discordConnected && !heartbeatIdle
  }

  /** A credited poll had a reachable presence, something shared, and a
      Hackatime heartbeat no more than three minutes before it inside the
      snapshot's window. */
  lemma CreditNeedsRecentHeartbeat(appEnabled: bool, showTimeTracking: bool, showReferralCode: bool,
                                   discordConnected: bool, previous: Option<nat>, now: nat,
                                   projects: seq<ProjectDetails>, windowStart: nat)
    ensures var idle := Snapshot(projects, windowStart, now).heartbeatIdle;
            var latest := LatestProject(projects, Some(windowStart));
            TickCredit(previous, now, SessionActive(appEnabled, showTimeTracking, showReferralCode,
                                                    discordConnected, idle)) > 0 ==>
              && appEnabled && (showTimeTracking || showReferralCode) && discordConnected
              && latest.Some? && windowStart <= latest.value.1 && now <= latest.value.1 + IdleAfterSeconds
  {
  }

  /** Hackatime is idle after three minutes without a heartbeat. */
  const IdleAfterSeconds: nat := 180

  /** The idle rule of the Hackatime snapshot: idle without a latest
      project, or when its heartbeat is more than three minutes old. */
  function IsIdle(latest: Option<(string, nat)>, now: nat): (idle: bool)
    ensures idle <==> latest.None? || now > latest.value.1 + IdleAfterSeconds
  {
    match latest
    case None => true
    case Some((_, unixTime)) => P.SatSub(now, unixTime) > IdleAfterSeconds
  }

  datatype Project = Project(name: string, hours: real)

  datatype HackatimeSnapshot = HackatimeSnapshot(
    currentProject: Option<Project>,
    totalHours: real,
    heartbeatIdle: bool)

  /** What `get_hackatime_data` returns: the snapshot and the accrued total. */
  datatype HackatimeData = HackatimeData(
    currentProject: Option<Project>,
    totalHours: real,
    heartbeatIdle: bool,
    sharingActiveSecondsTotal: u64)

  function Clamp(x: real): real {
    if x >= 0.0 then x else 0.0
  }

  /** The sum of the projects' seconds, each clamped at zero. */
  function TotalSeconds(ps: seq<ProjectDetails>): (t: real)
    ensures t >= 0.0
  {
    if ps == [] then 0.0 else Clamp(ps[0].totalSeconds) + TotalSeconds(ps[1..])
  }

  /** No project's clamped seconds exceed the total. */
  lemma {:induction false} TotalSecondsCoversEach(ps: seq<ProjectDetails>, i: nat)
    requires i < |ps|
    ensures Clamp(ps[i].totalSeconds) <= TotalSeconds(ps)
  {
    if i > 0 {
      TotalSecondsCoversEach(ps[1..], i - 1);
    }
  }

  /** `fetch_hackatime_snapshot` once the projects are in: the total in
      hours, the latest project inside the window, and the idle flag. */
  function Snapshot(projects: seq<ProjectDetails>, windowStart: nat, now: nat): (s: HackatimeSnapshot)
    ensures s.totalHours == TotalSeconds(projects) / 3600.0 && s.totalHours >= 0.0
    ensures s.currentProject.Some? <==> LatestProject(projects, Some(windowStart)).Some?
    ensures s.currentProject.Some? ==>
              s.currentProject.value == Project(LatestProject(projects, Some(windowStart)).value.0, s.totalHours)
    ensures s.heartbeatIdle <==> IsIdle(LatestProject(projects, Some(windowStart)), now)
    ensures !s.heartbeatIdle ==> s.currentProject.Some?
  {
    var totalHours := TotalSeconds(projects) / 3600.0;
    var latest := LatestProject(projects, Some(windowStart));
    HackatimeSnapshot(
      match latest
      case None => None
      case Some((name, _)) => Some(Project(name, totalHours)),
      totalHours,
      IsIdle(latest, now))
  }

  // Pure helpers of the commands.

  datatype DiscordStatus = DiscordStatus(connected: bool, enabled: bool, active: bool, flatpakDiscordDetected: bool)

  /** `discord_status`: the presence counts as active only while enabled.
      Flatpak detection is an input. */
  function DiscordStatusOf(enabled: bool, connected: bool, active: bool, flatpakDiscordDetected: bool): (r: DiscordStatus)
    ensures r.active <==> active && enabled
    ensures r.connected == connected && r.enabled == enabled
    ensures r.flatpakDiscordDetected == flatpakDiscordDetected
  {
    DiscordStatus(connected, enabled, active && enabled, flatpakDiscordDetected)
  }

  /** The check `open_external` makes before handing a URL to the browser:
      the trimmed URL, which must be an http or https address. */
  function OpenExternalTarget(url: string): (r: Result<string, string>)
    ensures r.Ok? <==> StartsWith(Trim(url), "https://") || StartsWith(Trim(url), "http://")
    ensures r.Ok? ==> r.value == Trim(url)
    ensures r.Err? ==> r.error == "Invalid URL"
  {
    var target := Trim(url);
    if !(StartsWith(target, "https://") || StartsWith(target, "http://")) then Err("Invalid URL")
    else Ok(target)
  }

  /** An accepted target is accepted again unchanged. */
  lemma OpenExternalTargetStable(url: string)
    requires OpenExternalTarget(url).Ok?
    ensures OpenExternalTarget(OpenExternalTarget(url).value) == OpenExternalTarget(url)
  {
    TrimIdempotent(url);
  }

  /** `mode_name`: the name the interface shows for a mode. */
  function ModeName(mode: Mode): (name: string)
    ensures name in {"none", "hackatime", "adult"}
  {
    match mode
    case Unset => "none"
    case Hackatime => "hackatime"
    case Adult => "adult"
  }

  /** Different modes have different names. */
  lemma ModeNameInjective(a: Mode, b: Mode)
    requires ModeName(a) == ModeName(b)
    ensures a == b
  {
  }

  /** `required`: the value, or the given message as the error. */
  function Required<T>(value: Option<T>, message: string): (r: Result<T, string>)
    ensures r.Ok? <==> value.Some?
    ensures r.Ok? ==> r.value == value.value
    ensures r.Err? ==> r.error == message
  {
    match value
    case Some(v) => Ok(v)
    case None => Err(message)
  }

  // The heartbeat protocol.

  /** What the heartbeat reads and writes: the held fingerprint (the
      Flavortown session id), the accrued total and the last poll time. */
  datatype Sharing = Sharing(fingerprint: Option<string>, total: u64, lastTick: Option<nat>)

  /** The platform name and application version sent with session requests. */
  datatype Metadata = Metadata(platform: string, appVersion: string)

  /** One heartbeat command: its result, the state it leaves, and the
      requests it sent in order. */
  datatype Exchange = Exchange(result: Result<nat, string>, after: Sharing, requests: seq<Request>)

  const RejectedAfterRotation := "Flavortown rejected fingerprint after rotation"

  /** `rotate_flavortime_fingerprint` given the reply to its session request:
      a new fingerprint resets the sharing session; a failure changes
      nothing. */
  function RotateSpec(s: Sharing, reply: Response<SessionIdBody>): (r: (Result<string, string>, Sharing))
    ensures r.0.Ok? ==> r.1 == Sharing(Some(r.0.value), 0, None)
    ensures r.0.Err? ==> r.1 == s
    ensures r.0 == ClassifySession(reply)
  {
    match ClassifySession(reply)
    case Err(e) => (Err(e), s)
    case Ok(id) => (Ok(id), Sharing(Some(id), 0, None))
  }

  /** `ensure_flavortime_fingerprint`: the held fingerprint without any
      request, or a rotation. */
  function EnsureSpec(apiKey: string, meta: Metadata, s: Sharing, reply: Response<SessionIdBody>)
    : (r: (Result<string, string>, Sharing, seq<Request>))
    ensures s.fingerprint.Some? ==> r == (Ok(s.fingerprint.value), s, [])
    ensures s.fingerprint.None? ==> r.2 == [CreateSessionRequest(apiKey, meta.platform, meta.appVersion)]
    ensures s.fingerprint.None? ==> (r.0, r.1) == RotateSpec(s, reply)
  {
    if s.fingerprint.Some? then (Ok(s.fingerprint.value), s, [])
    else
      var rotated := RotateSpec(s, reply);
      (rotated.0, rotated.1, [CreateSessionRequest(apiKey, meta.platform, meta.appVersion)])
  }

  /** The reading of one heartbeat reply into the command's result; a
      rejection is left to the caller. */
  function Answer(outcome: Result<HeartbeatOutcome, string>, rejected: string): Result<nat, string> {
    match outcome
    case Err(e) => Err(e)
    case Ok(ActiveUsers(n)) => Ok(n)
    case Ok(InvalidSessionId) => Err(rejected)
  }

  /** The retry after a rejected fingerprint: rotate, then send once more
      with the new fingerprint and the total after the rotation (zero). A
      second rejection is an error. The requests are those of the retry. */
  function RetrySpec(apiKey: string, meta: Metadata, s: Sharing,
                     sessionReply: Response<SessionIdBody>, heartbeatReply: Response<ActiveUsersBody>): (x: Exchange)
    ensures 1 <= |x.requests| <= 2
    ensures x.requests[0] == CreateSessionRequest(apiKey, meta.platform, meta.appVersion)
  {
    var rotated := RotateSpec(s, sessionReply);
    var create := CreateSessionRequest(apiKey, meta.platform, meta.appVersion);
    match rotated.0
    case Err(e) => Exchange(Err(e), rotated.1, [create])
    case Ok(fingerprint) =>
      var second := HeartbeatRequest(apiKey, fingerprint, rotated.1.total as nat, meta.platform, meta.appVersion);
      Exchange(Answer(ClassifyHeartbeat(heartbeatReply), RejectedAfterRotation), rotated.1, [create, second])
  }

  /** Signed in with Hackatime and holding a non-blank API key. */
  predicate HasCredentials(mode: Mode, apiKey: Option<string>) {
    mode.Hackatime? && apiKey.Some? && !IsBlank(apiKey.value)
  }

  /** `send_flavortown_heartbeat`. Nothing is sent unless signed in with
      Hackatime and holding a non-blank API key. The first heartbeat carries
      the total read at the start, before any fingerprint was created. */
  function HeartbeatExchange(mode: Mode, apiKey: Option<string>, s: Sharing, server: Server, meta: Metadata): (x: Exchange)
    ensures x.requests == [] <==> !HasCredentials(mode, apiKey)
    ensures !HasCredentials(mode, apiKey) ==> x == Exchange(Ok(0), s, [])
  {
    if !HasCredentials(mode, apiKey) then Exchange(Ok(0), s, [])
    else SignedInExchange(apiKey.value, s, server, meta)
  }

  /** The heartbeat command once the credentials are known to be usable. */
  function SignedInExchange(key: string, s: Sharing, server: Server, meta: Metadata): (x: Exchange)
    ensures 1 <= |x.requests| <= 4
    ensures s.fingerprint.Some? ==>
              x.requests[0] == HeartbeatRequest(key, s.fingerprint.value, s.total as nat, meta.platform, meta.appVersion)
    ensures s.fingerprint.None? ==> x.requests[0] == CreateSessionRequest(key, meta.platform, meta.appVersion)
  {
    var ensured := EnsureSpec(key, meta, s, server.sessionReply(0));
    match ensured.0
    case Err(e) => Exchange(Err(e), ensured.1, ensured.2)
    case Ok(fingerprint) =>
      var sent := ensured.2 + [HeartbeatRequest(key, fingerprint, s.total as nat, meta.platform, meta.appVersion)];
      var outcome := ClassifyHeartbeat(server.heartbeatReply(0));
      if outcome == Ok(InvalidSessionId) then
        var retry := RetrySpec(key, meta, ensured.1, server.sessionReply(|ensured.2|), server.heartbeatReply(1));
        Exchange(retry.result, retry.after, sent + retry.requests)
      else Exchange(Answer(outcome, RejectedAfterRotation), ensured.1, sent)
  }

  /** The number of heartbeat requests in a request list. */
  function Sends(requests: seq<Request>): nat {
    if requests == [] then 0
    else Sends(requests[..|requests| - 1]) + (if requests[|requests| - 1].endpoint == Heartbeat then 1 else 0)
  }

  lemma {:induction false} SendsAppend(a: seq<Request>, b: seq<Request>)
    ensures Sends(a + b) == Sends(a) + Sends(b)
    decreases |b|
  {
    if b == [] {
      assert a + b == a;
    } else {
      var k := |b| - 1;
      assert (a + b)[..|a + b| - 1] == a + b[..k];
      SendsAppend(a, b[..k]);
    }
  }

  /** The retry sends one heartbeat exactly when its rotation succeeds. */
  lemma RetrySends(apiKey: string, meta: Metadata, s: Sharing,
                   sessionReply: Response<SessionIdBody>, heartbeatReply: Response<ActiveUsersBody>)
    ensures Sends(RetrySpec(apiKey, meta, s, sessionReply, heartbeatReply).requests)
         == if RotateSpec(s, sessionReply).0.Ok? then 1 else 0
  {
    var create := CreateSessionRequest(apiKey, meta.platform, meta.appVersion);
    assert Sends([create]) == 0;
    var rotated := RotateSpec(s, sessionReply);
    if rotated.0.Ok? {
      var second := HeartbeatRequest(apiKey, rotated.0.value, rotated.1.total as nat, meta.platform, meta.appVersion);
      assert [create, second][..1] == [create];
    }
  }

  /** The heartbeats of a command: none when the fingerprint cannot be had,
      one more on a rejection followed by a successful rotation. */
  lemma {:induction false} HeartbeatSends(mode: Mode, apiKey: Option<string>, s: Sharing, server: Server, meta: Metadata)
    requires HasCredentials(mode, apiKey)
    ensures var ensured := EnsureSpec(apiKey.value, meta, s, server.sessionReply(0));
            Sends(HeartbeatExchange(mode, apiKey, s, server, meta).requests)
              == if ensured.0.Err? then 0
                 else if ClassifyHeartbeat(server.heartbeatReply(0)) != Ok(InvalidSessionId) then 1
                 else if RotateSpec(ensured.1, server.sessionReply(|ensured.2|)).0.Err? then 1
                 else 2
  {
    var key := apiKey.value;
    var ensured := EnsureSpec(key, meta, s, server.sessionReply(0));
    assert Sends(ensured.2) == 0 by {
      var create := CreateSessionRequest(key, meta.platform, meta.appVersion);
      assert Sends([create]) == 0;
    }
    if ensured.0.Ok? {
      FirstSendCounted(key, s, server, meta);
    }
  }

  /** The first heartbeat adds one send to those of the ensure step, and
      the retry adds its own. */
  lemma {:induction false} FirstSendCounted(key: string, s: Sharing, server: Server, meta: Metadata)
    requires EnsureSpec(key, meta, s, server.sessionReply(0)).0.Ok?
    ensures var ensured := EnsureSpec(key, meta, s, server.sessionReply(0));
            Sends(SignedInExchange(key, s, server, meta).requests)
              == Sends(ensured.2) + 1
                 + if ClassifyHeartbeat(server.heartbeatReply(0)) != Ok(InvalidSessionId) then 0
                   else if RotateSpec(ensured.1, server.sessionReply(|ensured.2|)).0.Err? then 0
                   else 1
  {
    var ensured := EnsureSpec(key, meta, s, server.sessionReply(0));
    var first := HeartbeatRequest(key, ensured.0.value, s.total as nat, meta.platform, meta.appVersion);
    var sent := ensured.2 + [first];
    assert Sends([first]) == 1;
    SendsAppend(ensured.2, [first]);
    if ClassifyHeartbeat(server.heartbeatReply(0)) == Ok(InvalidSessionId) {
      var retry := RetrySpec(key, meta, ensured.1, server.sessionReply(|ensured.2|), server.heartbeatReply(1));
      RetrySends(key, meta, ensured.1, server.sessionReply(|ensured.2|), server.heartbeatReply(1));
      SendsAppend(sent, retry.requests);
    }
  }

  /** At most two heartbeats and four requests in all per command. */
  lemma HeartbeatSendsAtMostTwice(mode: Mode, apiKey: Option<string>, s: Sharing, server: Server, meta: Metadata)
    ensures Sends(HeartbeatExchange(mode, apiKey, s, server, meta).requests) <= 2
    ensures |HeartbeatExchange(mode, apiKey, s, server, meta).requests| <= 4
  {
    if HasCredentials(mode, apiKey) {
      HeartbeatSends(mode, apiKey, s, server, meta);
    }
  }

  /** A held fingerprint is used as it is: the first request is the
      heartbeat, with that fingerprint and the total held at the start. */
  lemma HeartbeatReusesFingerprint(mode: Mode, apiKey: Option<string>, s: Sharing, server: Server, meta: Metadata)
    requires HasCredentials(mode, apiKey) && s.fingerprint.Some?
    ensures HeartbeatExchange(mode, apiKey, s, server, meta).requests[0]
         == HeartbeatRequest(apiKey.value, s.fingerprint.value, s.total as nat, meta.platform, meta.appVersion)
  {
  }

  /** Without a fingerprint the command first creates a session, and its
      first heartbeat still carries the total held at the start, although
      creating the session reset the held total to zero. */
  lemma HeartbeatFirstSendCarriesStartingTotal(mode: Mode, apiKey: Option<string>, s: Sharing, server: Server, meta: Metadata)
    requires HasCredentials(mode, apiKey) && s.fingerprint.None?
    requires ClassifySession(server.sessionReply(0)).Ok?
    ensures var x := HeartbeatExchange(mode, apiKey, s, server, meta);
            && |x.requests| >= 2
            && x.requests[0] == CreateSessionRequest(apiKey.value, meta.platform, meta.appVersion)
            && x.requests[1] == HeartbeatRequest(apiKey.value, ClassifySession(server.sessionReply(0)).value,
                                                 s.total as nat, meta.platform, meta.appVersion)
            && (x.after.fingerprint == Some(ClassifySession(server.sessionReply(0)).value) ==> x.after.total == 0)
  {
    var key := apiKey.value;
    var ensured := EnsureSpec(key, meta, s, server.sessionReply(0));
    var create := CreateSessionRequest(key, meta.platform, meta.appVersion);
    var first := HeartbeatRequest(key, ensured.0.value, s.total as nat, meta.platform, meta.appVersion);
    var x := HeartbeatExchange(mode, apiKey, s, server, meta);
    if ClassifyHeartbeat(server.heartbeatReply(0)) == Ok(InvalidSessionId) {
      var retry := RetrySpec(key, meta, ensured.1, server.sessionReply(1), server.heartbeatReply(1));
      assert x.requests == [create, first] + retry.requests;
    } else {
      assert x.requests == [create, first];
    }
  }

  /** A fingerprint and its sharing session change together: the command
      either leaves the state as it was, or leaves a fingerprint with the
      total and the last poll reset. */
  lemma {:induction false} HeartbeatRotationResetsSession(mode: Mode, apiKey: Option<string>, s: Sharing, server: Server, meta: Metadata)
    ensures var x := HeartbeatExchange(mode, apiKey, s, server, meta);
            x.after == s || (x.after.fingerprint.Some? && x.after.total == 0 && x.after.lastTick.None?)
  {
    if HasCredentials(mode, apiKey) {
      var key := apiKey.value;
      var ensured := EnsureSpec(key, meta, s, server.sessionReply(0));
      assert ensured.1 == s || (ensured.1.fingerprint.Some? && ensured.1.total == 0 && ensured.1.lastTick.None?);
      if ensured.0.Ok? && ClassifyHeartbeat(server.heartbeatReply(0)) == Ok(InvalidSessionId) {
        var rotated := RotateSpec(ensured.1, server.sessionReply(|ensured.2|));
        assert rotated.1 == ensured.1 || (rotated.1.fingerprint.Some? && rotated.1.total == 0 && rotated.1.lastTick.None?);
      }
    }
  }

  /** After a rejection and a successful rotation, the retry is the last
      request: a heartbeat with the new fingerprint and a zero total. */
  lemma {:induction false} HeartbeatRetryCarriesZero(mode: Mode, apiKey: Option<string>, s: Sharing, server: Server, meta: Metadata)
    requires HasCredentials(mode, apiKey)
    ensures var x := HeartbeatExchange(mode, apiKey, s, server, meta);
            Sends(x.requests) == 2 ==>
              && x.requests[|x.requests| - 1].endpoint == Heartbeat
              && x.requests[|x.requests| - 1].sharingActiveSecondsTotal == Some(0)
              && x.requests[|x.requests| - 1].sessionId == x.after.fingerprint
              && x.after.total == 0
  {
    HeartbeatSends(mode, apiKey, s, server, meta);
    var x := HeartbeatExchange(mode, apiKey, s, server, meta);
    var key := apiKey.value;
    var ensured := EnsureSpec(key, meta, s, server.sessionReply(0));
    if Sends(x.requests) == 2 {
      var first := HeartbeatRequest(key, ensured.0.value, s.total as nat, meta.platform, meta.appVersion);
      var retry := RetrySpec(key, meta, ensured.1, server.sessionReply(|ensured.2|), server.heartbeatReply(1));
      assert x.requests == (ensured.2 + [first]) + retry.requests;
      assert |retry.requests| == 2;
    }
  }

  /** Two rejections in a row end in the rotation error, with no third
      attempt. */
  lemma {:induction false} HeartbeatSecondRejectionFails(mode: Mode, apiKey: Option<string>, s: Sharing, server: Server, meta: Metadata)
    requires HasCredentials(mode, apiKey)
    requires forall k :: ClassifySession(server.sessionReply(k)).Ok?
    requires server.heartbeatReply(0).Http? && server.heartbeatReply(0).status == NotFound
    requires server.heartbeatReply(1).Http? && server.heartbeatReply(1).status == NotFound
    ensures HeartbeatExchange(mode, apiKey, s, server, meta).result == Err(RejectedAfterRotation)
    ensures Sends(HeartbeatExchange(mode, apiKey, s, server, meta).requests) == 2
  {
    HeartbeatSends(mode, apiKey, s, server, meta);
    var key := apiKey.value;
    var ensured := EnsureSpec(key, meta, s, server.sessionReply(0));
    assert ClassifySession(server.sessionReply(|ensured.2|)).Ok?;
  }

  // The shared application state.

  /** `AppState`: the configuration, the presence manager slot (created on
      first need), the held fingerprint and the last accrual poll. */
  class AppState {
    const text: P.RichPresenceText
    const config: Config
    var discord: P.PresenceManager?
    var fingerprint: Option<string>
    var lastTick: Option<nat>

    ghost predicate Valid()
      reads this, discord
    {
      discord != null ==> discord.Valid()
    }

    ghost function SharingState(): Sharing
      reads this, config
    {
      Sharing(fingerprint, config.sharingActiveSecondsTotal, lastTick)
    }

    /** `AppState::default` over a loaded configuration: a leftover total
        from an earlier run is dropped; nothing else is held yet. */
    constructor (text: P.RichPresenceText, loaded: Config)
      modifies loaded`sharingActiveSecondsTotal
      ensures Valid()
      ensures this.text == text && config == loaded && loaded.sharingActiveSecondsTotal == 0
      ensures discord == null && fingerprint.None? && lastTick.None?
    {
      if loaded.sharingActiveSecondsTotal != 0 {
        loaded.sharingActiveSecondsTotal := 0;
      }
      this.text := text;
      config := loaded;
      discord := null;
      fingerprint := None;
      lastTick := None;
    }

    /** `accumulate_sharing_seconds`: credits the poll and records it. */
    method AccumulateSharingSeconds(now: nat, sessionActive: bool) returns (total: u64)
      modifies this`lastTick, config`sharingActiveSecondsTotal
      ensures config.sharingActiveSecondsTotal
           == SatAdd(old(config.sharingActiveSecondsTotal), TickCredit(old(lastTick), now, sessionActive))
      ensures old(config.sharingActiveSecondsTotal) <= config.sharingActiveSecondsTotal
      ensures lastTick == Some(now) && total == config.sharingActiveSecondsTotal
    {
      var previous := lastTick;
      if previous.Some? {
        var elapsed := Min(P.SatSub(now, previous.value), MaxTickSeconds);
        if elapsed > 0 && sessionActive {
          config.sharingActiveSecondsTotal := SatAdd(config.sharingActiveSecondsTotal, elapsed);
        }
      }
      lastTick := Some(now);
      total := config.sharingActiveSecondsTotal;
    }

    /** The connection check of `get_hackatime_data`: false without a
        manager; otherwise a recovery check and a resync, then readiness. */
    method PollConnection(now: nat) returns (connected: bool)
      requires Valid()
      modifies discord
      ensures Valid()
      ensures connected <==> discord != null && discord.ready
      ensures discord != null ==>
                && (discord.RecoveryWasDue(now) ==> discord.Restarted(now, old(discord.state)))
                && (!discord.RecoveryWasDue(now) ==> discord.Reconciled(old(discord.state)))
    {
      if discord == null {
        return false;
      }
      discord.MaybeRecover(now);
      discord.Sync(now);
      connected := discord.IsReady();
    }

    /** `get_hackatime_data` given the outcome of fetching the snapshot.
        Without a Slack id or outside Hackatime mode it fails before
        fetching. Otherwise it polls the presence connection (recovery
        check, resync, readiness) and credits the poll as active sharing
        exactly when `SessionActive` holds for the configuration, the
        connection and the snapshot's idle flag. */
    method GetHackatimeData(now: nat, fetched: Result<HackatimeSnapshot, string>)
      returns (r: Result<HackatimeData, string>)
      requires Valid()
      modifies discord, this`lastTick, config`sharingActiveSecondsTotal
      ensures Valid() && discord == old(discord)
      ensures config.slackId.Some? && config.authMode.Hackatime? && fetched.Ok? && discord != null ==>
                && (discord.RecoveryWasDue(now) ==> discord.Restarted(now, old(discord.state)))
                && (!discord.RecoveryWasDue(now) ==> discord.Reconciled(old(discord.state)))
      ensures !(config.slackId.Some? && config.authMode.Hackatime? && fetched.Ok?) && discord != null ==>
                unchanged(discord)
      ensures config.slackId.None? || !config.authMode.Hackatime? ==> r == Err("Not logged in with Flavortime")
      ensures config.slackId.Some? && config.authMode.Hackatime? && fetched.Err? ==> r == Err(fetched.error)
      ensures r.Err? ==>
                lastTick == old(lastTick) && config.sharingActiveSecondsTotal == old(config.sharingActiveSecondsTotal)
      ensures config.slackId.Some? && config.authMode.Hackatime? && fetched.Ok? ==>
                var connected := discord != null && discord.ready;
                var active := SessionActive(config.appEnabled, config.showTimeTracking, config.showReferralCode,
                                            connected, fetched.value.heartbeatIdle);
                && config.sharingActiveSecondsTotal
                   == SatAdd(old(config.sharingActiveSecondsTotal), TickCredit(old(lastTick), now, active))
                && lastTick == Some(now)
                && r == Ok(HackatimeData(fetched.value.currentProject, fetched.value.totalHours,
                                         fetched.value.heartbeatIdle, config.sharingActiveSecondsTotal))
    {
      if config.slackId.None? || !config.authMode.Hackatime? {
        return Err("Not logged in with Flavortime");
      }
      if fetched.Err? {
        return Err(fetched.error);
      }
      var snapshot := fetched.value;
      var sharingEnabled := config.appEnabled && (config.showTimeTracking || config.showReferralCode);
      var discordConnected := PollConnection(now);
      var shouldAccumulate := sharingEnabled && discordConnected && !snapshot.heartbeatIdle;
      var total := AccumulateSharingSeconds(now, shouldAccumulate);
      r := Ok(HackatimeData(snapshot.currentProject, snapshot.totalHours, snapshot.heartbeatIdle, total));
    }

    /** `reset_sharing_session`. */
    method ResetSharingSession()
      modifies this`lastTick, config`sharingActiveSecondsTotal
      ensures config.sharingActiveSecondsTotal == 0 && lastTick.None?
    {
      config.sharingActiveSecondsTotal := 0;
      lastTick := None;
    }

    /** `rotate_flavortime_fingerprint`, given the reply to its request. */
    method RotateFingerprint(apiKey: string, meta: Metadata, reply: Response<SessionIdBody>)
      returns (r: Result<string, string>, request: Request)
      modifies this`fingerprint, this`lastTick, config`sharingActiveSecondsTotal
      ensures request == CreateSessionRequest(apiKey, meta.platform, meta.appVersion)
      ensures (r, SharingState()) == RotateSpec(old(SharingState()), reply)
    {
      request := CreateSessionRequest(apiKey, meta.platform, meta.appVersion);
      r := ClassifySession(reply);
      if r.Err? {
        return;
      }
      fingerprint := Some(r.value);
      ResetSharingSession();
    }

    /** `ensure_flavortime_fingerprint`, given the reply to the request it
      sends when it has to rotate. */
    method EnsureFingerprint(apiKey: string, meta: Metadata, reply: Response<SessionIdBody>)
      returns (r: Result<string, string>, requests: seq<Request>)
      modifies this`fingerprint, this`lastTick, config`sharingActiveSecondsTotal
      ensures (r, SharingState(), requests) == EnsureSpec(apiKey, meta, old(SharingState()), reply)
    {
      if fingerprint.Some? {
        return Ok(fingerprint.value), [];
      }
      var request;
      r, request := RotateFingerprint(apiKey, meta, reply);
      requests := [request];
    }

    /** `send_flavortown_heartbeat` against the service `server`. */
    method SendFlavortownHeartbeat(server: Server, meta: Metadata) returns (r: Result<nat, string>, requests: seq<Request>)
      modifies this`fingerprint, this`lastTick, config`sharingActiveSecondsTotal
      ensures Exchange(r, SharingState(), requests)
           == HeartbeatExchange(config.authMode, config.flavortownApiKey, old(SharingState()), server, meta)
    {
      var mode, apiKey, total := config.authMode, config.flavortownApiKey, config.sharingActiveSecondsTotal;
      if !mode.Hackatime? {
        return Ok(0), [];
      }
      if apiKey.None? || IsBlank(apiKey.value) {
        return Ok(0), [];
      }
      r, requests := SendSignedIn(apiKey.value, total, server, meta);
    }

    /** The heartbeat command once the credentials are known to be usable;
        `total` is the accrued total read at the start of the command. */
    method SendSignedIn(key: string, total: u64, server: Server, meta: Metadata)
      returns (r: Result<nat, string>, requests: seq<Request>)
      requires total == SharingState().total
      modifies this`fingerprint, this`lastTick, config`sharingActiveSecondsTotal
      ensures Exchange(r, SharingState(), requests) == SignedInExchange(key, old(SharingState()), server, meta)
    {
      var current;
      current, requests := EnsureFingerprint(key, meta, server.sessionReply(0));
      if current.Err? {
        return Err(current.error), requests;
      }
      var sessions := |requests|;
      requests := requests + [HeartbeatRequest(key, current.value, total as nat, meta.platform, meta.appVersion)];
      var outcome := ClassifyHeartbeat(server.heartbeatReply(0));
      if outcome != Ok(InvalidSessionId) {
        return Answer(outcome, RejectedAfterRotation), requests;
      }
      var rotated, request := RotateFingerprint(key, meta, server.sessionReply(sessions));
      if rotated.Err? {
        return Err(rotated.error), requests + [request];
      }
      var totalAfterRotate := config.sharingActiveSecondsTotal;
      var second := HeartbeatRequest(key, rotated.value, totalAfterRotate as nat, meta.platform, meta.appVersion);
      requests := requests + [request, second];
      r := Answer(ClassifyHeartbeat(server.heartbeatReply(1)), RejectedAfterRotation);
    }

    /** `ensure_discord_client`: creates and starts a manager when the slot
      is empty; keeps the existing one otherwise. */
    method EnsureDiscordClient(now: nat)
      requires Valid()
      modifies this`discord
      ensures Valid() && discord != null
      ensures old(discord) != null ==> discord == old(discord)
      ensures old(discord) == null ==>
                && fresh(discord) && discord.text == text
                && discord.state == P.InitialPresence && discord.intents == [P.Connect]
                && !discord.ready && !discord.stopping && discord.unreadySince == now
    {
      if discord == null {
        var client := new P.PresenceManager(text);
        client.Start(now);
        discord := client;
      }
    }

    /** `poll_discord_status`: an optional forced reconnect, a recovery
      check and a resync, then readiness and activity. */
    method PollDiscordStatus(enabled: bool, forceRefresh: bool, now: nat) returns (connected: bool, active: bool)
      requires Valid()
      modifies discord
      ensures Valid()
      ensures discord == null ==> !connected && !active
      ensures discord != null ==> connected == discord.ready && active == discord.IsActive()
      ensures active ==> connected
    {
      if discord == null {
        return false, false;
      }
      if enabled && forceRefresh {
        discord.ForceRefresh(now);
      }
      discord.MaybeRecover(now);
      discord.Sync(now);
      connected := discord.IsReady();
      active := discord.IsActive();
    }

    /** `get_discord_status` (with `forceRefresh` false) and
      `force_refresh_discord` (true). */
    method GetDiscordStatus(now: nat, forceRefresh: bool, flatpakDiscordDetected: bool) returns (status: DiscordStatus)
      requires Valid()
      modifies this`discord, discord
      ensures Valid()
      ensures status.enabled == config.appEnabled
      ensures status.active ==> status.connected && status.enabled
      ensures config.appEnabled ==> discord != null
      ensures discord == null ==> !status.connected
    {
      var enabled := config.appEnabled;
      if enabled {
        EnsureDiscordClient(now);
      }
      var connected, active := PollDiscordStatus(enabled, forceRefresh, now);
      status := DiscordStatusOf(enabled, connected, active, flatpakDiscordDetected);
    }

    /** `sync_discord`: makes sure a manager exists while enabled, then
      pushes the enabled flag and the displayed referral code to it with
      an empty project. The referral button follows `show_referral_code`. */
    method SyncDiscord(now: nat)
      requires Valid()
      modifies this`discord, discord
      ensures Valid()
      ensures config.appEnabled ==> discord != null
      ensures old(discord) != null ==> discord == old(discord)
      ensures discord != null ==>
                && discord.state.enabled == config.appEnabled
                && discord.state.project.None? && discord.state.hours.None?
                && discord.state.referral == config.Display()
                && discord.state.showReferralButton == config.showReferralCode
    {
      if config.appEnabled {
        EnsureDiscordClient(now);
      }
      if discord != null {
        discord.SetEnabled(now, config.appEnabled);
        discord.MaybeRecover(now);
        discord.Update(now, None, None, config.Display(), config.showReferralCode);
      }
    }

    /** `logout`: the configuration back to its defaults, the manager
      stopped and dropped (the drop stops it again, a no-op), and the
      fingerprint and last poll forgotten. */
    method Logout()
      requires Valid()
      modifies config, this`discord, this`fingerprint, this`lastTick, discord
      ensures Valid()
      ensures config.IsDefault()
      ensures discord == null && fingerprint.None? && lastTick.None?
      ensures old(discord) != null ==>
                && old(discord).stopping && !old(discord).ready
                && old(discord).state == old(discord.state)
                && old(discord).intents == old(discord.intents) + (if old(discord.stopping) then [] else [P.Shutdown])
    {
      config.Reset();
      if discord != null {
        discord.Stop();
        discord.Stop();
      }
      discord := null;
      fingerprint := None;
      lastTick := None;
    }

    /** `login_as_adult`: switches to the adult mode, dropping credentials,
      codes and time tracking; resets the sharing session; reconnects the
      presence when enabled; then syncs it. */
    method LoginAsAdult(now: nat)
      requires Valid()
      modifies config, this`discord, this`fingerprint, this`lastTick, discord
      ensures Valid()
      ensures config.authMode == Adult
      ensures config.flavortownApiKey.None? && config.slackId.None?
      ensures config.availableReferralCodes == [] && config.selectedReferralCode.None?
      ensures !config.showTimeTracking
      ensures config.customReferralCode == old(config.customReferralCode)
      ensures config.showReferralCode == old(config.showReferralCode)
      ensures config.launchAtStartup == old(config.launchAtStartup)
      ensures config.appEnabled == old(config.appEnabled)
      ensures config.sharingActiveSecondsTotal == 0
      ensures fingerprint.None? && lastTick.None?
      ensures config.appEnabled ==> discord != null
      ensures discord != null ==>
                && discord.state.enabled == config.appEnabled
                && discord.state.referral == config.Display()
    {
      config.authMode := Adult;
      config.flavortownApiKey := None;
      config.slackId := None;
      config.availableReferralCodes := [];
      config.selectedReferralCode := None;
      config.showTimeTracking := false;
      fingerprint := None;
      ResetSharingSession();
      if config.appEnabled {
        EnsureDiscordClient(now);
        discord.ReconnectNow(now);
      }
      SyncDiscord(now);
    }
  }
}

=== FILE: configuration.dfy ===
/** The persisted application configuration (`Config`) and its referral-code
    bookkeeping. Loading and saving the file are not part of this model. */
module Configuration {
  import opened Wrappers
  import opened Text

  /** `u64`, the width of the persisted sharing total. */
  newtype u64 = x: int | 0 <= x < 0x1_0000_0000_0000_0000

  const U64Max: u64 := 0xFFFF_FFFF_FFFF_FFFF

  /** The sign-in mode; `Unset` is the source's `Mode::None`. */
  datatype Mode = Unset | Hackatime | Adult

  datatype Referral = Referral(code: string, codeType: string)

  /** The index of the first code of type "custom", if there is one. */
  function FirstCustomIndex(codes: seq<Referral>): (r: Option<nat>)
    ensures r.Some? ==> r.value < |codes| && codes[r.value].codeType == "custom"
    ensures r.Some? ==> forall j :: 0 <= j < r.value ==> codes[j].codeType != "custom"
    ensures r.None? ==> forall j :: 0 <= j < |codes| ==> codes[j].codeType != "custom"
  {
    if codes == [] then None
    else if codes[0].codeType == "custom" then Some(0)
    else match FirstCustomIndex(codes[1..])
      case Some(i) => Some(i + 1)
      case None => None
  }

  /** `preferred_code`: the first custom code, else the first code, else
      nothing. */
  function PreferredCode(codes: seq<Referral>): (r: Option<string>)
    ensures r.None? <==> codes == []
    ensures r.Some? ==> IsAvailable(r.value, codes)
    ensures (exists i :: 0 <= i < |codes| && codes[i].codeType == "custom") ==>
              exists i :: 0 <= i < |codes| && codes[i].codeType == "custom"
                          && (forall j :: 0 <= j < i ==> codes[j].codeType != "custom")
                          && r == Some(codes[i].code)
    ensures codes != [] && (forall i :: 0 <= i < |codes| ==> codes[i].codeType != "custom") ==>
              r == Some(codes[0].code)
  {
    match FirstCustomIndex(codes)
    case Some(i) => Some(codes[i].code)
    case None => if codes == [] then None else Some(codes[0].code)
  }

  /** The code is one of the available codes. */
  predicate IsAvailable(code: string, codes: seq<Referral>) {
    exists i :: 0 <= i < |codes| && codes[i].code == code
  }

  /** What `ensure_selected_code` does to the selection, with its "changed"
      flag: a selection among the available codes is kept; anything else is
      replaced by the preferred code. */
  function EnsureSelection(selected: Option<string>, codes: seq<Referral>): (r: (Option<string>, bool))
    ensures r.1 <==> r.0 != selected
    ensures selected.Some? && IsAvailable(selected.value, codes) ==> r.0 == selected
    ensures r.0.None? <==> codes == []
    ensures r.0.Some? ==> IsAvailable(r.0.value, codes)
    ensures !(selected.Some? && IsAvailable(selected.value, codes)) ==> r.0 == PreferredCode(codes)
  {
    if selected.Some? && IsAvailable(selected.value, codes) then (selected, false)
    else
      var preferred := PreferredCode(codes);
      if preferred != selected then (preferred, true) else (selected, false)
  }

  lemma EnsureSelectionIdempotent(selected: Option<string>, codes: seq<Referral>)
    ensures var once := EnsureSelection(selected, codes).0;
            EnsureSelection(once, codes) == (once, false)
  {
  }

  /** `display_code`: nothing when the code is hidden; otherwise the trimmed
      custom code, then the selected code, then the preferred code. */
  function DisplayCode(showReferralCode: bool, customCode: Option<string>,
                       selected: Option<string>, codes: seq<Referral>): (r: Option<string>)
    ensures !showReferralCode ==> r.None?
    ensures showReferralCode && NonEmptyTrimmed(customCode).Some? ==> r == NonEmptyTrimmed(customCode)
    ensures showReferralCode && NonEmptyTrimmed(customCode).None? ==>
              r == if selected.Some? then selected else PreferredCode(codes)
  {
    if !showReferralCode then None
    else NonEmptyTrimmed(customCode).OrElse(selected).OrElse(PreferredCode(codes))
  }

  /** Once the selection has been ensured, a shown code that is not the
      custom one is always one of the available codes, and there is one
      exactly when codes are available. */
  lemma DisplayedCodeIsAvailable(customCode: Option<string>, selected: Option<string>, codes: seq<Referral>)
    requires NonEmptyTrimmed(customCode).None?
    ensures var shown := DisplayCode(true, customCode, EnsureSelection(selected, codes).0, codes);
            && (shown.Some? <==> codes != [])
            && (shown.Some? ==> IsAvailable(shown.value, codes))
  {
  }

  class Config {
    var authMode: Mode
    var slackId: Option<string>
    var flavortownApiKey: Option<string>
    var availableReferralCodes: seq<Referral>
    var selectedReferralCode: Option<string>
    var customReferralCode: Option<string>
    var showReferralCode: bool
    var showTimeTracking: bool
    var launchAtStartup: bool
    var appEnabled: bool
    var sharingActiveSecondsTotal: u64

    /** The values of `Config::default`. */
    ghost predicate IsDefault()
      reads this
    {
      && authMode == Unset
      && slackId == None
      && flavortownApiKey == None
      && availableReferralCodes == []
      && selectedReferralCode == None
      && customReferralCode == None
      && showReferralCode
      && showTimeTracking
      && !launchAtStartup
      && appEnabled
      && sharingActiveSecondsTotal == 0
    }

    /** `Config::default`. */
    constructor ()
      ensures IsDefault()
    {
      authMode := Unset;
      slackId := None;
      flavortownApiKey := None;
      availableReferralCodes := [];
      selectedReferralCode := None;
      customReferralCode := None;
      showReferralCode := true;
      showTimeTracking := true;
      launchAtStartup := false;
      appEnabled := true;
      sharingActiveSecondsTotal := 0;
    }

    /** `reset`: every field back to its default. */
    method Reset()
      modifies this
      ensures IsDefault()
    {
      authMode := Unset;
      slackId := None;
      flavortownApiKey := None;
      availableReferralCodes := [];
      selectedReferralCode := None;
      customReferralCode := None;
      showReferralCode := true;
      showTimeTracking := true;
      launchAtStartup := false;
      appEnabled := true;
      sharingActiveSecondsTotal := 0;
    }

    function Preferred(): Option<string>
      reads this
    {
      PreferredCode(availableReferralCodes)
    }

    function Display(): Option<string>
      reads this
    {
      DisplayCode(showReferralCode, customReferralCode, selectedReferralCode, availableReferralCodes)
    }

    /** `ensure_selected_code`: keeps a selection that is among the available
        codes, otherwise selects the preferred code; reports whether the
        selection changed. */
    method EnsureSelectedCode() returns (changed: bool)
      modifies this`selectedReferralCode
      ensures (selectedReferralCode, changed) == EnsureSelection(old(selectedReferralCode), availableReferralCodes)
    {
      var isSelectedValid := selectedReferralCode.Some? && IsAvailable(selectedReferralCode.value, availableReferralCodes);
      if isSelectedValid {
        return false;
      }
      var preferred := Preferred();
      if preferred != selectedReferralCode {
        selectedReferralCode := preferred;
        return true;
      }
      return false;
    }
  }
}

=== FILE: flavortown.dfy ===
/** The Flavortown API client: how each endpoint's response is classified,
    and what each request carries. Sending the request is not modelled: a
    request is a value and a response is an input. */
module Flavortown {
  import opened Wrappers
  import opened Text
  import opened Http

  /** The body of a heartbeat or close reply. */
  datatype ActiveUsersBody = ActiveUsersBody(activeUsers: Option<nat>)
  /** The body of a session-creation reply (`sessionId` or `session_id`). */
  datatype SessionIdBody = SessionIdBody(sessionId: Option<string>)
  /** The body of the current-user reply (`slackId` or `slack_id`). */
  datatype MeBody = MeBody(slackId: Option<string>)

  datatype HeartbeatOutcome = ActiveUsers(count: nat) | InvalidSessionId
  datatype CloseOutcome = ClosedActiveUsers(count: nat) | CloseInvalidSessionId

  /** The four endpoints a request can go to. */
  datatype Endpoint = CurrentUser | CreateSession | Heartbeat | Close

  /** A request as the client builds it. `authorization` is the header value;
      the session header and the body fields are present only where the
      endpoint sends them. */
  datatype Request = Request(
    endpoint: Endpoint,
    authorization: string,
    sessionHeader: Option<string>,
    sessionId: Option<string>,
    sharingActiveSecondsTotal: Option<nat>,
    platform: Option<string>,
    appVersion: Option<string>)

  /** The bearer header; every call trims the API key first. */
  function Authorization(apiKey: string): string {
    "Bearer " + Trim(apiKey)
  }

  function CurrentUserRequest(apiKey: string): Request {
    Request(CurrentUser, Authorization(apiKey), None, None, None, None, None)
  }

  function CreateSessionRequest(apiKey: string, platform: string, appVersion: string): Request {
    Request(CreateSession, Authorization(apiKey), None, None, None, Some(platform), Some(appVersion))
  }

  function HeartbeatRequest(apiKey: string, sessionId: string, total: nat, platform: string, appVersion: string): Request {
    Request(Heartbeat, Authorization(apiKey), Some(sessionId), Some(sessionId), Some(total), Some(platform), Some(appVersion))
  }

  function CloseRequest(apiKey: string, sessionId: string, total: nat, platform: string, appVersion: string): Request {
    Request(Close, Authorization(apiKey), Some(sessionId), Some(sessionId), Some(total), Some(platform), Some(appVersion))
  }

  /** The bearer header of a key and of its trimmed form are the same. */
  lemma AuthorizationUsesTrimmedKey(apiKey: string)
    ensures Authorization(Trim(apiKey)) == Authorization(apiKey)
  {
    TrimIdempotent(apiKey);
  }

  /** Requests differ only through their bearer header: two keys with the
      same header produce the same requests. */
  lemma RequestsFollowAuthorization(k1: string, k2: string, sessionId: string, total: nat, platform: string, appVersion: string)
    requires Authorization(k1) == Authorization(k2)
    ensures CurrentUserRequest(k1) == CurrentUserRequest(k2)
    ensures CreateSessionRequest(k1, platform, appVersion) == CreateSessionRequest(k2, platform, appVersion)
    ensures HeartbeatRequest(k1, sessionId, total, platform, appVersion)
         == HeartbeatRequest(k2, sessionId, total, platform, appVersion)
    ensures CloseRequest(k1, sessionId, total, platform, appVersion)
         == CloseRequest(k2, sessionId, total, platform, appVersion)
  {
  }

  /** Surrounding whitespace on the API key never reaches the server: every
      request is the same as for the trimmed key. */
  lemma RequestsUseTrimmedKey(apiKey: string, sessionId: string, total: nat, platform: string, appVersion: string)
    ensures CurrentUserRequest(Trim(apiKey)) == CurrentUserRequest(apiKey)
    ensures CreateSessionRequest(Trim(apiKey), platform, appVersion) == CreateSessionRequest(apiKey, platform, appVersion)
    ensures HeartbeatRequest(Trim(apiKey), sessionId, total, platform, appVersion)
         == HeartbeatRequest(apiKey, sessionId, total, platform, appVersion)
    ensures CloseRequest(Trim(apiKey), sessionId, total, platform, appVersion)
         == CloseRequest(apiKey, sessionId, total, platform, appVersion)
  {
    AuthorizationUsesTrimmedKey(apiKey);
    RequestsFollowAuthorization(Trim(apiKey), apiKey, sessionId, total, platform, appVersion);
  }

  /** The failure text of a non-success reply: "<prefix><status> <body>". */
  function StatusFailure<B>(prefix: string, r: Response<B>): string
    requires r.Http?
  {
    prefix + r.statusText + " " + r.bodyText
  }

  /** `send_heartbeat`'s reading of the reply. A 404 means the session id is
      unknown, which is an outcome and not an error; any other failure
      status is an error; a success without a count means zero users. */
  function ClassifyHeartbeat(r: Response<ActiveUsersBody>): (o: Result<HeartbeatOutcome, string>)
    ensures o == Ok(InvalidSessionId) <==> r.Http? && r.status == NotFound
    ensures r.Http? && !IsSuccess(r.status) && r.status != NotFound ==>
              o == Err("Heartbeat failed: " + r.statusText + " " + r.bodyText)
    ensures r.Http? && IsSuccess(r.status) && r.decoded.Ok? ==>
              o == Ok(ActiveUsers(r.decoded.value.activeUsers.GetOr(0)))
    ensures r.Http? && IsSuccess(r.status) && r.decoded.Err? ==> o == Err(r.decoded.error)
    ensures r.NetworkError? ==> o == Err(r.message)
  {
    match r
    case NetworkError(message) => Err(message)
    case Http(status, _, _, decoded) =>
      if !IsSuccess(status) then
        if status == NotFound then Ok(InvalidSessionId)
        else Err(StatusFailure("Heartbeat failed: ", r))
      else match decoded
        case Err(e) => Err(e)
        case Ok(body) => Ok(ActiveUsers(body.activeUsers.GetOr(0)))
  }

  /** `close_session`'s reading of the reply, which differs from the
      heartbeat's only in the wording of the status error. */
  function ClassifyClose(r: Response<ActiveUsersBody>): (o: Result<CloseOutcome, string>)
  {
    match r
    case NetworkError(message) => Err(message)
    case Http(status, _, _, decoded) =>
      if !IsSuccess(status) then
        if status == NotFound then Ok(CloseInvalidSessionId)
        else Err(StatusFailure("Close session failed: ", r))
      else match decoded
        case Err(e) => Err(e)
        case Ok(body) => Ok(ClosedActiveUsers(body.activeUsers.GetOr(0)))
  }

  /** Closing and heartbeating classify every reply alike: the same count,
      the same unknown-session verdict, an error exactly when the other has
      one, and the same error text apart from the status-error prefix. */
  lemma {:induction false} CloseClassifiesLikeHeartbeat(r: Response<ActiveUsersBody>)
    ensures ClassifyClose(r).Err? <==> ClassifyHeartbeat(r).Err?
    ensures ClassifyClose(r) == Ok(CloseInvalidSessionId) <==> ClassifyHeartbeat(r) == Ok(InvalidSessionId)
    ensures forall n :: ClassifyClose(r) == Ok(ClosedActiveUsers(n)) <==> ClassifyHeartbeat(r) == Ok(ActiveUsers(n))
    ensures r.Http? && !IsSuccess(r.status) && r.status != NotFound ==>
              ClassifyClose(r) == Err("Close session failed: " + r.statusText + " " + r.bodyText)
    ensures ClassifyClose(r).Err? && !(r.Http? && !IsSuccess(r.status)) ==>
              ClassifyClose(r).error == ClassifyHeartbeat(r).error
  {
  }

  /** `create_session`'s reading of the reply: the trimmed session id, or
      an error when the status fails or the id is absent or blank. */
  function ClassifySession(r: Response<SessionIdBody>): (o: Result<string, string>)
    ensures o.Ok? ==> r.Http? && IsSuccess(r.status) && r.decoded.Ok?
    ensures o.Ok? ==> r.decoded.value.sessionId.Some?
    ensures r.NetworkError? ==> o == Err(r.message)
    ensures r.Http? && !IsSuccess(r.status) ==>
              o == Err("Session creation failed: " + r.statusText + " " + r.bodyText)
    ensures r.Http? && IsSuccess(r.status) && r.decoded.Err? ==> o == Err(r.decoded.error)
    ensures r.Http? && IsSuccess(r.status) && r.decoded.Ok?
            && r.decoded.value.sessionId.Some? && !IsBlank(r.decoded.value.sessionId.value) ==>
              o == Ok(Trim(r.decoded.value.sessionId.value))
  {
    match r
    case NetworkError(message) => Err(message)
    case Http(status, _, _, decoded) =>
      if !IsSuccess(status) then Err(StatusFailure("Session creation failed: ", r))
      else match decoded
        case Err(e) => Err(e)
        case Ok(body) =>
          match NonEmptyTrimmed(body.sessionId)
          case Some(id) => Ok(id)
          case None => Err("Flavortown did not return a session ID")
  }
  /** The id `ClassifySession` returns is the reply's id trimmed, never blank; an
      absent or blank id in a successful reply is an error. */
  lemma SessionIdIsTrimmed(r: Response<SessionIdBody>)
    ensures ClassifySession(r).Ok? ==> ClassifySession(r).value == Trim(r.decoded.value.sessionId.value)
    ensures ClassifySession(r).Ok? ==> !IsBlank(ClassifySession(r).value)
    ensures r.Http? && IsSuccess(r.status) && r.decoded.Ok? && NonEmptyTrimmed(r.decoded.value.sessionId).None? ==>
              ClassifySession(r) == Err("Flavortown did not return a session ID")
  {
    if ClassifySession(r).Ok? {
      TrimIdempotent(r.decoded.value.sessionId.value);
    }
  }


  /** `current_user`'s reading of the reply: the trimmed Slack id, or an
      error when the status fails or the id is absent or blank. */
  function ClassifyCurrentUser(r: Response<MeBody>): (o: Result<string, string>)
    ensures o.Ok? ==> r.Http? && IsSuccess(r.status) && r.decoded.Ok?
    ensures o.Ok? ==> r.decoded.value.slackId.Some?
    ensures r.NetworkError? ==> o == Err(r.message)
    ensures r.Http? && !IsSuccess(r.status) ==>
              o == Err("Flavortown login failed: " + r.statusText + " " + r.bodyText)
    ensures r.Http? && IsSuccess(r.status) && r.decoded.Err? ==> o == Err(r.decoded.error)
    ensures r.Http? && IsSuccess(r.status) && r.decoded.Ok?
            && r.decoded.value.slackId.Some? && !IsBlank(r.decoded.value.slackId.value) ==>
              o == Ok(Trim(r.decoded.value.slackId.value))
  {
    match r
    case NetworkError(message) => Err(message)
    case Http(status, _, _, decoded) =>
      if !IsSuccess(status) then Err(StatusFailure("Flavortown login failed: ", r))
      else match decoded
        case Err(e) => Err(e)
        case Ok(body) =>
          match NonEmptyTrimmed(body.slackId)
          case Some(id) => Ok(id)
          case None => Err("No Slack ID associated with this Flavortown account")
  }
  /** The id `ClassifyCurrentUser` returns is the reply's id trimmed, never blank; an
      absent or blank id in a successful reply is an error. */
  lemma SlackIdIsTrimmed(r: Response<MeBody>)
    ensures ClassifyCurrentUser(r).Ok? ==> ClassifyCurrentUser(r).value == Trim(r.decoded.value.slackId.value)
    ensures ClassifyCurrentUser(r).Ok? ==> !IsBlank(ClassifyCurrentUser(r).value)
    ensures r.Http? && IsSuccess(r.status) && r.decoded.Ok? && NonEmptyTrimmed(r.decoded.value.slackId).None? ==>
              ClassifyCurrentUser(r) == Err("No Slack ID associated with this Flavortown account")
  {
    if ClassifyCurrentUser(r).Ok? {
      TrimIdempotent(r.decoded.value.slackId.value);
    }
  }


  /** The remote service as an oracle: its reply to the k-th session request
      and to the k-th heartbeat of one exchange. */
  datatype Server = Server(
    sessionReply: nat -> Response<SessionIdBody>,
    heartbeatReply: nat -> Response<ActiveUsersBody>)
}

=== FILE: hackatime.dfy ===
/** The Hackatime client: which project was worked on last, and the address
    of the project-details request. The request itself, the JSON decoding
    and the RFC 3339 parser are not modelled; a parsed stamp is an input. */
module Hackatime {
  import opened Wrappers
  import opened Text

  /** A heartbeat field as the RFC 3339 parser sees it: text that does not
      parse (or lies before 1970), or whole seconds since the epoch. */
  datatype Stamp = Unparsable | Unix(secs: nat)

  datatype ProjectDetails = ProjectDetails(
    name: string,
    totalSeconds: real,
    lastHeartbeat: Option<Stamp>,
    mostRecentHeartbeat: Option<Stamp>)

  /** `parse_iso_timestamp` applied to an optional field. */
  function Parsed(field: Option<Stamp>): (r: Option<nat>)
    ensures r.Some? <==> field.Some? && field.value.Unix?
  {
    match field
    case Some(Unix(secs)) => Some(secs)
    case _ => None
  }

  /** `project_timestamp`: the most recent heartbeat when it parses, else
      the last heartbeat when that parses. */
  function ProjectTimestamp(p: ProjectDetails): (r: Option<nat>)
    ensures r.Some? <==> Parsed(p.mostRecentHeartbeat).Some? || Parsed(p.lastHeartbeat).Some?
    ensures Parsed(p.mostRecentHeartbeat).Some? ==> r == Parsed(p.mostRecentHeartbeat)
    ensures Parsed(p.mostRecentHeartbeat).None? ==> r == Parsed(p.lastHeartbeat)
  {
    Parsed(p.mostRecentHeartbeat).OrElse(Parsed(p.lastHeartbeat))
  }

  /** The timestamp a project competes with in `latest_project`: none when
      it has no usable timestamp or one strictly below the minimum. */
  function Candidate(p: ProjectDetails, minTimestamp: Option<nat>): (r: Option<nat>)
    ensures r.Some? <==> ProjectTimestamp(p).Some? && (minTimestamp.None? || ProjectTimestamp(p).value >= minTimestamp.value)
    ensures r.Some? ==> r == ProjectTimestamp(p)
  {
    match ProjectTimestamp(p)
    case None => None
    case Some(ts) =>
      if minTimestamp.Some? && ts < minTimestamp.value then None else Some(ts)
  }

  /** The index `max_by_key` settles on: among the candidates, one with the
      greatest timestamp, and of those the last. */
  function LatestIndex(ps: seq<ProjectDetails>, minTimestamp: Option<nat>): (r: Option<nat>)
    ensures r.None? <==> forall i :: 0 <= i < |ps| ==> Candidate(ps[i], minTimestamp).None?
    ensures r.Some? ==> r.value < |ps| && Candidate(ps[r.value], minTimestamp).Some?
    ensures r.Some? ==> forall i :: 0 <= i < |ps| && Candidate(ps[i], minTimestamp).Some? ==>
                          Candidate(ps[i], minTimestamp).value <= Candidate(ps[r.value], minTimestamp).value
    ensures r.Some? ==> forall i :: r.value < i < |ps| && Candidate(ps[i], minTimestamp).Some? ==>
                          Candidate(ps[i], minTimestamp).value < Candidate(ps[r.value], minTimestamp).value
  {
    if ps == [] then None
    else
      var k := |ps| - 1;
      var prev := LatestIndex(ps[..k], minTimestamp);
      assert forall i :: 0 <= i < k ==> ps[..k][i] == ps[i];
      match Candidate(ps[k], minTimestamp)
      case None => prev
      case Some(ts) =>
        if prev.None? || Candidate(ps[prev.value], minTimestamp).value <= ts then Some(k)
        else prev
  }

  /** `latest_project`: the name and timestamp of the latest candidate. */
  function LatestProject(ps: seq<ProjectDetails>, minTimestamp: Option<nat>): (r: Option<(string, nat)>)
    ensures r.None? <==> forall i :: 0 <= i < |ps| ==> Candidate(ps[i], minTimestamp).None?
    ensures r.Some? ==> exists i :: 0 <= i < |ps| && Candidate(ps[i], minTimestamp).Some? && r.value == (ps[i].name, Candidate(ps[i], minTimestamp).value)
    ensures r.Some? ==> minTimestamp.None? || r.value.1 >= minTimestamp.value
    ensures r.Some? ==> forall i :: 0 <= i < |ps| && Candidate(ps[i], minTimestamp).Some? ==>
                          Candidate(ps[i], minTimestamp).value <= r.value.1
  {
    match LatestIndex(ps, minTimestamp)
    case None => None
    case Some(k) => Some((ps[k].name, Candidate(ps[k], minTimestamp).value))
  }

  /** Adding a project with a strictly older timestamp than the current
      winner, or one without a usable timestamp, does not change the result. */
  lemma {:induction false} LatestProjectIgnoresOlder(ps: seq<ProjectDetails>, p: ProjectDetails, minTimestamp: Option<nat>)
    requires LatestProject(ps, minTimestamp).Some?
    requires Candidate(p, minTimestamp).None? || Candidate(p, minTimestamp).value < LatestProject(ps, minTimestamp).value.1
    ensures LatestProject(ps + [p], minTimestamp) == LatestProject(ps, minTimestamp)
  {
    assert (ps + [p])[..|ps|] == ps;
  }

  /** A later project that ties with the current winner takes its place. */
  lemma {:induction false} LatestProjectPrefersLaterTie(ps: seq<ProjectDetails>, p: ProjectDetails, minTimestamp: Option<nat>)
    requires LatestProject(ps, minTimestamp).Some?
    requires Candidate(p, minTimestamp) == Some(LatestProject(ps, minTimestamp).value.1)
    ensures LatestProject(ps + [p], minTimestamp) == Some((p.name, LatestProject(ps, minTimestamp).value.1))
  {
    assert (ps + [p])[..|ps|] == ps;
  }

  // Percent-encoding as `urlencoding::encode` does it.

  /** The characters left as they are: ASCII letters, digits and `-._~`. */
  predicate IsUnreserved(c: char) {
    ('A' <= c <= 'Z') || ('a' <= c <= 'z') || ('0' <= c <= '9') || c == '-' || c == '.' || c == '_' || c == '~'
  }

  predicate IsUpperHex(c: char) {
    ('0' <= c <= '9') || ('A' <= c <= 'F')
  }

  function HexDigit(d: nat): (c: char)
    requires d < 16
    ensures IsUpperHex(c)
  {
    if d < 10 then (('0' as int) + d) as char else (('A' as int) + d - 10) as char
  }

  /** The UTF-8 encoding of one character, as byte values. */
  function Utf8(c: char): (bytes: seq<nat>)
    ensures 1 <= |bytes| <= 4
    ensures forall i :: 0 <= i < |bytes| ==> bytes[i] < 256
    ensures (c as int) < 0x80 <==> |bytes| == 1
  {
    var cp := c as int;
    if cp < 0x80 then [cp]
    else if cp < 0x800 then [0xC0 + cp / 0x40, 0x80 + cp % 0x40]
    else if cp < 0x1_0000 then [0xE0 + cp / 0x1000, 0x80 + (cp / 0x40) % 0x40, 0x80 + cp % 0x40]
    else [0xF0 + cp / 0x4_0000, 0x80 + (cp / 0x1000) % 0x40, 0x80 + (cp / 0x40) % 0x40, 0x80 + cp % 0x40]
  }

  /** `%XX` for each byte, with upper-case hex digits. */
  function PercentBytes(bytes: seq<nat>): (r: string)
    requires forall i :: 0 <= i < |bytes| ==> bytes[i] < 256
    ensures |r| == 3 * |bytes|
    ensures forall i :: 0 <= i < |r| ==> r[i] == '%' || IsUpperHex(r[i])
  {
    if bytes == [] then []
    else ['%', HexDigit(bytes[0] / 16), HexDigit(bytes[0] % 16)] + PercentBytes(bytes[1..])
  }

  /** A string is encoded character by character; an unreserved character
      is kept and any other becomes the percent-escapes of its UTF-8 bytes. */
  function UrlEncode(s: string): (r: string)
    ensures forall i :: 0 <= i < |r| ==> IsUnreserved(r[i]) || r[i] == '%' || IsUpperHex(r[i])
    ensures (forall i :: 0 <= i < |s| ==> IsUnreserved(s[i])) ==> r == s
    ensures |s| <= |r|
  {
    if s == [] then []
    else
      var head := if IsUnreserved(s[0]) then [s[0]] else PercentBytes(Utf8(s[0]));
      head + UrlEncode(s[1..])
  }

  /** The value of an upper-case hex digit. */
  function HexValue(c: char): (v: nat)
    ensures v < 16
  {
    if '0' <= c <= '9' then (c as int) - ('0' as int)
    else if 'A' <= c <= 'F' then (c as int) - ('A' as int) + 10
    else 0
  }

  lemma HexValueOfDigit(d: nat)
    requires d < 16
    ensures HexValue(HexDigit(d)) == d
  {
  }

  /** Percent-decoding to bytes, as a server reads a path segment or a
      query value: `%XY` is the byte with hex value XY, and any other
      character is its own (ASCII) byte. */
  function PercentDecode(r: string): seq<nat>
    decreases |r|
  {
    if r == [] then []
    else if r[0] == '%' && |r| >= 3 then [HexValue(r[1]) * 16 + HexValue(r[2])] + PercentDecode(r[3..])
    else [r[0] as nat] + PercentDecode(r[1..])
  }

  /** The UTF-8 bytes of a whole string. */
  function Utf8String(s: string): seq<nat> {
    if s == [] then [] else Utf8(s[0]) + Utf8String(s[1..])
  }

  /** A byte is its high hex digit times sixteen plus its low one. */
  lemma ByteFromDigits(b: nat)
    requires b < 256
    ensures HexValue(HexDigit(b / 16)) * 16 + HexValue(HexDigit(b % 16)) == b
  {
    HexValueOfDigit(b / 16);
    HexValueOfDigit(b % 16);
  }

  /** One escape decodes to its byte. */
  lemma DecodeEscape(b: nat, tail: string)
    requires b < 256
    ensures PercentDecode(['%', HexDigit(b / 16), HexDigit(b % 16)] + tail) == [b] + PercentDecode(tail)
  {
    var r := ['%', HexDigit(b / 16), HexDigit(b % 16)] + tail;
    assert r[3..] == tail;
    ByteFromDigits(b);
  }

  /** Decoding the escapes of some bytes gives those bytes back. */
  lemma {:induction false} DecodePercentBytes(bytes: seq<nat>, rest: string)
    requires forall i :: 0 <= i < |bytes| ==> bytes[i] < 256
    ensures PercentDecode(PercentBytes(bytes) + rest) == bytes + PercentDecode(rest)
  {
    if bytes == [] {
      assert PercentBytes(bytes) + rest == rest;
    } else {
      var b := bytes[0];
      var tail := PercentBytes(bytes[1..]) + rest;
      assert PercentBytes(bytes) + rest == ['%', HexDigit(b / 16), HexDigit(b % 16)] + tail;
      DecodeEscape(b, tail);
      DecodePercentBytes(bytes[1..], rest);
      assert bytes == [b] + bytes[1..];
    }
  }

  /** Percent-encoding loses nothing: decoding an encoded string gives
      exactly its UTF-8 bytes, so strings with different UTF-8 encodings
      give different encoded text. */
  lemma {:induction false} DecodeEncode(s: string)
    ensures PercentDecode(UrlEncode(s)) == Utf8String(s)
  {
    if s != [] {
      var rest := UrlEncode(s[1..]);
      DecodeEncode(s[1..]);
      if IsUnreserved(s[0]) {
        var r := [s[0]] + rest;
        assert r[1..] == rest;
        assert Utf8(s[0]) == [s[0] as nat];
      } else {
        DecodePercentBytes(Utf8(s[0]), rest);
      }
    }
  }

  /** Encoded text never holds a character with meaning in a query or a
      path. */
  lemma EncodedHasNoDelimiters(s: string)
    ensures '&' !in UrlEncode(s) && '?' !in UrlEncode(s) && '/' !in UrlEncode(s) && '=' !in UrlEncode(s)
    ensures '#' !in UrlEncode(s)
  {
  }

  // The project-details request address.

  /** A date bound that the query uses: present and not blank. */
  predicate Present(date: Option<string>) {
    date.Some? && !IsBlank(date.value)
  }

  /** One `key=value` parameter with the value percent-encoded. */
  function Param(key: string, value: string): (p: string)
    requires '&' !in key
    ensures '&' !in p
  {
    EncodedHasNoDelimiters(value);
    key + UrlEncode(value)
  }

  /** The parameters one date bound adds: both names it goes by, with the
      value encoded as given, untrimmed. */
  function BoundParts(date: Option<string>, name: string, alias: string): (parts: seq<string>)
    requires '&' !in name && '&' !in alias
    ensures |parts| == if Present(date) then 2 else 0
    ensures forall i :: 0 <= i < |parts| ==> '&' !in parts[i]
  {
    if Present(date) then [Param(name, date.value), Param(alias, date.value)] else []
  }

  /** The query parameters, in the order the request adds them. */
  function QueryParts(startDate: Option<string>, endDate: Option<string>): (parts: seq<string>)
    ensures |parts| == (if Present(startDate) then 2 else 0) + (if Present(endDate) then 2 else 0)
    ensures forall i :: 0 <= i < |parts| ==> '&' !in parts[i]
  {
    BoundParts(startDate, "start_date=", "since=") + BoundParts(endDate, "end_date=", "until=")
  }

  /** The query string: `?` and the parts joined by `&`, or nothing. */
  function QuerySuffix(parts: seq<string>): (r: string)
    ensures r == [] <==> parts == []
    ensures r != [] ==> r[0] == '?'
  {
    if parts == [] then [] else "?" + Join(parts, '&')
  }

  /** A server reading the query back by splitting on `&` gets exactly the
      parameters the client added. */
  lemma QueryRoundTrip(startDate: Option<string>, endDate: Option<string>)
    requires Present(startDate) || Present(endDate)
    ensures Split(QuerySuffix(QueryParts(startDate, endDate))[1..], '&') == QueryParts(startDate, endDate)
  {
    var parts := QueryParts(startDate, endDate);
    assert QuerySuffix(parts)[1..] == Join(parts, '&');
    SplitJoin(parts, '&');
  }

  /** The path of the details endpoint for a user, before the query. */
  function DetailsPath(baseUrl: string, username: string): string {
    baseUrl + "/api/v1/users/" + UrlEncode(Trim(username)) + "/projects/details"
  }

  /** The encoded user name fills exactly one path segment: the path is the
      base, "/api/v1/users/", then characters none of which is '/', '?' or
      '#', then "/projects/details". */
  lemma UserIsOnePathSegment(baseUrl: string, username: string)
    ensures var r := DetailsPath(baseUrl, username);
            var k := |baseUrl| + 14;
            && |r| >= k + 17
            && r[..k] == baseUrl + "/api/v1/users/"
            && r[|r| - 17..] == "/projects/details"
            && forall i :: k <= i < |r| - 17 ==> r[i] != '/' && r[i] != '?' && r[i] != '#'
  {
    var segment := UrlEncode(Trim(username));
    assert DetailsPath(baseUrl, username) == (baseUrl + "/api/v1/users/") + segment + "/projects/details";
    EncodedHasNoDelimiters(Trim(username));
    SegmentBetween(baseUrl + "/api/v1/users/", segment, "/projects/details");
  }

  /** Characters of a middle part keep their properties once framed. */
  lemma SegmentBetween(front: string, segment: string, back: string)
    requires '/' !in segment && '?' !in segment && '#' !in segment
    ensures var r := front + segment + back;
            && r[..|front|] == front
            && r[|r| - |back|..] == back
            && forall i :: |front| <= i < |r| - |back| ==> r[i] != '/' && r[i] != '?' && r[i] != '#'
  {
    var r := front + segment + back;
    forall i | |front| <= i < |r| - |back|
      ensures r[i] != '/' && r[i] != '?' && r[i] != '#'
    {
      assert r[i] == segment[i - |front|];
    }
  }

  /** One bound's pushes: both parameters when the bound is present. */
  method PushBound(parts: seq<string>, date: Option<string>, name: string, alias: string)
    returns (pushed: seq<string>)
    requires '&' !in name && '&' !in alias
    ensures pushed == parts + BoundParts(date, name, alias)
  {
    pushed := parts;
    if Present(date) {
      pushed := pushed + [Param(name, date.value)];
      pushed := pushed + [Param(alias, date.value)];
    }
  }

  /** The query parameters as `user_projects_details` collects them,
      pushing onto a list that starts empty. */
  method CollectQueryParts(startDate: Option<string>, endDate: Option<string>) returns (parts: seq<string>)
    ensures parts == QueryParts(startDate, endDate)
  {
    parts := PushBound([], startDate, "start_date=", "since=");
    assert parts == BoundParts(startDate, "start_date=", "since=");
    parts := PushBound(parts, endDate, "end_date=", "until=");
  }

  /** The address `user_projects_details` requests: a blank username is
      refused before anything else; a query is appended only when some
      parameter was collected. */
  method ProjectsDetailsUrl(baseUrl: string, username: string, startDate: Option<string>, endDate: Option<string>)
    returns (r: Result<string, string>)
    ensures r.Err? <==> IsBlank(username)
    ensures r.Err? ==> r.error == "Missing Slack ID"
    ensures r.Ok? ==> r.value == DetailsPath(baseUrl, username) + QuerySuffix(QueryParts(startDate, endDate))
  {
    var name := Trim(username);
    if name == [] {
      return Err("Missing Slack ID");
    }
    var url := DetailsPath(baseUrl, username);
    var parts := CollectQueryParts(startDate, endDate);
    if parts != [] {
      url := url + "?";
      url := url + Join(parts, '&');
    }
    return Ok(url);
  }
}

=== FILE: http.dfy ===
/** The shape of an HTTP exchange as the service clients see it, with the
    transport and the JSON decoding already done. */
module Http {
  import opened Wrappers

  /** A failed send (`reqwest` error, carried as its message), or a status
      code with its display text ("404 Not Found"), the body as text (empty
      when unreadable) and the body decoded as `B` (or the decoder's error). */
  datatype Response<B> =
    | NetworkError(message: string)
    | Http(status: nat, statusText: string, bodyText: string, decoded: Result<B, string>)

  /** `StatusCode::is_success`: a 2xx status. */
  predicate IsSuccess(status: nat) {
    200 <= status < 300
  }

  const NotFound: nat := 404
}

=== FILE: i18n.dfy ===
/** The dashboard's string table lookup: a dotted key such as
    "rpc.waiting" is looked up one object level per dot-separated part in
    the decoded locale JSON, and the key itself is shown whenever the walk
    does not end on a string. */
module I18n {
  import opened Wrappers
  import opened Text

  /** A decoded JSON value. Property lookup on objects sees only their own
      members; on arrays it sees the canonical decimal indices and
      `length`. */
  datatype Json =
    | JNull
    | JBool(b: bool)
    | JNumber(n: real)
    | JString(s: string)
    | JArray(items: seq<Json>)
    | JObject(fields: map<string, Json>)

  /** `value == null || typeof value !== 'object'` is false: `value` is
      defined (Some), not null, and an object or an array. An undefined
      value is None. */
  predicate IsObject(value: Option<Json>) {
    value.Some? && (value.value.JObject? || value.value.JArray?)
  }

  /** The index of the array element named `part`, searching from `i`: the
      part must read exactly as the decimal index. */
  function ArrayIndex(part: string, n: nat, i: nat): (r: Option<nat>)
    ensures r.Some? ==> i <= r.value < n && NatToString(r.value) == part
    ensures r.None? ==> forall j :: i <= j < n ==> NatToString(j) != part
    decreases n - i
  {
    if i >= n then None
    else if NatToString(i) == part then Some(i)
    else ArrayIndex(part, n, i + 1)
  }

  /** `value[part]` on an object or an array; None is `undefined`. */
  function Member(value: Json, part: string): (r: Option<Json>)
    requires value.JObject? || value.JArray?
    ensures value.JObject? ==> (r.Some? <==> part in value.fields)
    ensures value.JObject? && part in value.fields ==> r == Some(value.fields[part])
    ensures value.JArray? && part == "length" ==> r == Some(JNumber(|value.items| as real))
    ensures value.JArray? && part != "length" ==>
              (r.Some? <==> exists i :: 0 <= i < |value.items| && NatToString(i) == part)
    ensures value.JArray? && part != "length" ==>
              forall i :: 0 <= i < |value.items| && NatToString(i) == part ==> r == Some(value.items[i])
  {
    match value
    case JObject(fields) => if part in fields then Some(fields[part]) else None
    case JArray(items) =>
      if part == "length" then Some(JNumber(|items| as real))
      else match ArrayIndex(part, |items|, 0)
        case Some(k) =>
          NatToStringInjective();
          assert 0 <= k < |items| && NatToString(k) == part;
          Some(items[k])
        case None => None
  }

  /** Distinct indices have distinct decimal names. */
  lemma NatToStringInjective()
    ensures forall i: nat, j: nat :: NatToString(i) == NatToString(j) ==> i == j
  {
    forall i: nat, j: nat | NatToString(i) == NatToString(j)
      ensures i == j
    {
      NatToStringRoundTrip(i);
      NatToStringRoundTrip(j);
    }
  }

  /** The walk of `resolve`: Some(final value) when every part was looked
      up in an object, None when it met a null, undefined or non-object
      value before the parts ran out. */
  function Descend(value: Option<Json>, parts: seq<string>): Option<Option<Json>>
    decreases |parts|
  {
    if parts == [] then Some(value)
    else if !IsObject(value) then None
    else Descend(Member(value.value, parts[0]), parts[1..])
  }

  /** `resolve(key)` against the table `strings`. */
  function ResolveIn(strings: Json, key: string): string {
    match Descend(Some(strings), Split(key, '.'))
    case Some(Some(JString(s))) => s
    case _ => key
  }

  /** Walking a path in two pieces is walking it at once. */
  lemma {:induction false} DescendAppend(value: Option<Json>, p: seq<string>, q: seq<string>)
    ensures Descend(value, p + q) ==
              match Descend(value, p)
              case None => None
              case Some(w) => Descend(w, q)
    decreases |p|
  {
    if p == [] {
      assert p + q == q;
    } else if IsObject(value) {
      assert (p + q)[0] == p[0];
      assert (p + q)[1..] == p[1..] + q;
      DescendAppend(Member(value.value, p[0]), p[1..], q);
    }
  }

  /** A key without a dot names a top-level string. */
  lemma ResolveTopLevel(fields: map<string, Json>, key: string, s: string)
    requires '.' !in key
    requires key in fields && fields[key] == JString(s)
    ensures ResolveIn(JObject(fields), key) == s
  {
    SplitJoin([key], '.');
    assert Split(key, '.') == [key];
    assert [key][1..] == [];
    assert Descend(Some(JObject(fields)), [key]) == Descend(Some(JString(s)), []);
  }

  /** "a.b" names the string `b` inside the object `a`. */
  lemma ResolveNested(fields: map<string, Json>, a: string, b: string, inner: map<string, Json>, s: string)
    requires '.' !in a && '.' !in b
    requires a in fields && fields[a] == JObject(inner)
    requires b in inner && inner[b] == JString(s)
    ensures ResolveIn(JObject(fields), a + "." + b) == s
  {
    var parts := [a, b];
    assert Join(parts, '.') == a + "." + b;
    SplitJoin(parts, '.');
    assert parts[1..] == [b] && [b][1..] == [];
    assert Descend(Some(JObject(fields)), parts) == Descend(Some(JObject(inner)), [b]);
    assert Descend(Some(JObject(inner)), [b]) == Descend(Some(JString(s)), []);
  }

  /** Whatever the table, a key whose walk passes through a string before
      its last part resolves to the key itself: "a.b" with "a" a string. */
  lemma ResolveStopsAtString(fields: map<string, Json>, a: string, b: string, s: string)
    requires '.' !in a && '.' !in b
    requires a in fields && fields[a] == JString(s)
    ensures ResolveIn(JObject(fields), a + "." + b) == a + "." + b
  {
    var parts := [a, b];
    assert Join(parts, '.') == a + "." + b;
    SplitJoin(parts, '.');
    assert parts[1..] == [b];
    assert Descend(Some(JObject(fields)), parts) == Descend(Some(JString(s)), [b]);
  }

  /** With the empty table every key resolves to itself. */
  lemma {:induction false} ResolveEmptyTable(key: string)
    ensures ResolveIn(JObject(map[]), key) == key
  {
    var parts := Split(key, '.');
    assert Descend(Some(JObject(map[])), parts) == Descend(None, parts[1..]);
  }

  /** The module-level table of the dashboard. Loading a locale, which
      fetches it, is not part of this model. */
  class Localizer {
    var strings: Json

    /** `let strings = {}`. */
    constructor ()
      ensures strings == JObject(map[])
    {
      strings := JObject(map[]);
    }

    /** `resolve`: the loop over the key's parts. */
    method Resolve(key: string) returns (r: string)
      ensures r == ResolveIn(strings, key)
    {
      var parts := Split(key, '.');
      var value: Option<Json> := Some(strings);
      var i := 0;
      while i < |parts|
        invariant 0 <= i <= |parts|
        invariant Descend(Some(strings), parts) == Descend(value, parts[i..])
      {
        if !IsObject(value) {
          return key;
        }
        assert parts[i..][1..] == parts[i + 1..];
        value := Member(value.value, parts[i]);
        i := i + 1;
      }
      r := if value.Some? && value.value.JString? then value.value.s else key;
    }

    /** `t`: the same lookup. */
    method T(key: string) returns (r: string)
      ensures r == ResolveIn(strings, key)
    {
      r := Resolve(key);
    }
  }
}

=== FILE: presence.dfy ===
/** The Discord rich-presence connection manager (`DiscordPresenceManager`)
    and the pure text composers that build its payload.

    The transport is abstract. The three callbacks the manager registers on
    the client (ready, disconnected, error) are explicit methods, and so is
    the end of the detached shutdown worker. The detached workers that
    publish, clear and shut down are recorded, in order, in a ghost log of
    intents. The clock is a `now` parameter in unix seconds. */
module Presence {
  import opened Wrappers
  import opened Text

  /** The locale strings for the payload (`RichPresenceText`). */
  datatype RichPresenceText = RichPresenceText(
    detailsProjectPrefix: string,
    detailsIdle: string,
    brandLabel: string,
    referralButton: string,
    referralHost: string,
    timeTodayPrefix: string,
    timeLoggedSuffix: string,
    statusTagline: string)

  /** The built-in English strings, used for every field the bundled locale
      file leaves out. */
  const DefaultText := RichPresenceText(
    "Project: ",
    "Flavortown",
    "Flavortown",
    "Sign up",
    "flavortown.hackclub.com",
    "Today: ",
    " logged",
    "Work on your personal projects, get rewarded with prizes. For teens ages <19")

  /** The host the referral button falls back to when the locale's host is blank. */
  const FallbackReferralHost := "flavortown.hackclub.com"

  const U32Max: nat := 0xFFFF_FFFF

  /** The manager's `Presence` record. Hours are the `f64` of the source,
      taken here as an exact real. */
  datatype Presence = Presence(
    project: Option<string>,
    hours: Option<real>,
    referral: Option<string>,
    showReferralButton: bool,
    enabled: bool,
    sessionStart: Option<nat>,
    activityPublished: bool)

  /** What `DiscordPresenceManager::new` starts from: enabled, nothing else set. */
  const InitialPresence := Presence(None, None, None, false, true, None, false)

  datatype Button = Button(caption: string, url: string)

  /** The activity handed to the transport. The activity type (playing), the
      status display (name) and both image keys ("flavortown_logo") are the
      same in every payload and are not repeated here. */
  datatype Activity = Activity(
    details: string,
    state: string,
    largeText: string,
    smallText: Option<string>,
    start: Option<nat>,
    button: Option<Button>)

  /** What the manager asks of the transport, in the order it asks. */
  datatype Intent = Connect | Shutdown | Publish(activity: Activity) | Clear

  /** `a.saturating_sub(b)` on unsigned integers. */
  function SatSub(a: nat, b: nat): nat {
    if a >= b then a - b else 0
  }

  const MinUnreadySeconds: nat := 18
  const MinRestartGapSeconds: nat := 25

  /** The recovery debounce of `maybe_recover`: a restart is due only for an
      enabled, idle (not stopping), unready connection that has been unready
      for at least 18 seconds and was last restarted at least 25 seconds ago. */
  function RecoveryDue(enabled: bool, stopping: bool, ready: bool,
                       unreadySince: nat, lastRestart: nat, now: nat): (due: bool)
    ensures due <==> enabled && !stopping && !ready && unreadySince != 0
                     && now >= unreadySince + MinUnreadySeconds
                     && now >= lastRestart + MinRestartGapSeconds
  {
    if !enabled || stopping || ready then false
    else if unreadySince == 0 then false
    else if SatSub(now, unreadySince) < MinUnreadySeconds then false
    else if SatSub(now, lastRestart) < MinRestartGapSeconds then false
    else true
  }

  /** `hours.is_some_and(|h| h > 0.0)`. */
  predicate PositiveHours(hours: Option<real>) {
    hours.Some? && hours.value > 0.0
  }

  /** `(hours * 60.0).round().max(0.0) as u32`: the nearest whole minute
      (halves away from zero), never negative, saturating at `u32::MAX`. */
  function RoundedMinutes(hours: real): (m: nat)
    ensures m <= U32Max
    ensures hours <= 0.0 ==> m == 0
    ensures 0.0 <= hours * 60.0 < U32Max as real ==>
              (m as real) - 0.5 <= hours * 60.0 < (m as real) + 0.5
    ensures hours * 60.0 >= U32Max as real ==> m == U32Max
  {
    var x := hours * 60.0;
    if x <= 0.0 then 0
    else
      var f := (x + 0.5).Floor;
      if f > U32Max then U32Max else f
  }

  /** `split_hours_minutes`: whole hours and the remaining minutes of the
      rounded minute count. */
  function SplitHoursMinutes(hours: real): (r: (nat, nat))
    ensures r.0 * 60 + r.1 == RoundedMinutes(hours)
    ensures r.1 < 60
  {
    var mins := RoundedMinutes(hours);
    (mins / 60, mins % 60)
  }

  /** `fmt_hours_short`: "Hh Mm", or "Mm" when there is no whole hour. */
  function FmtHoursShort(hours: real): string {
    var (whole, rem) := SplitHoursMinutes(hours);
    DurationText(whole, rem)
  }

  /** `fmt_hours`: the short form between the locale's prefix and suffix. */
  function FmtHours(hours: real, text: RichPresenceText): string {
    var (whole, rem) := SplitHoursMinutes(hours);
    if whole > 0 then
      text.timeTodayPrefix + NatToString(whole) + "h " + NatToString(rem) + "m" + text.timeLoggedSuffix
    else
      text.timeTodayPrefix + NatToString(rem) + "m" + text.timeLoggedSuffix
  }

  lemma FmtHoursFramesShortForm(hours: real, text: RichPresenceText)
    ensures FmtHours(hours, text) == text.timeTodayPrefix + FmtHoursShort(hours) + text.timeLoggedSuffix
  {
    var (whole, rem) := SplitHoursMinutes(hours);
    if whole > 0 {
      assert FmtHoursShort(hours) == NatToString(whole) + "h " + NatToString(rem) + "m";
    }
  }

  /** Messages of benign transport errors: they are dropped without being
      reported (`is_transient_rpc_error`). */
  predicate IsTransientRpcError(event: string) {
    Contains(event, "Error parsing Json") || Contains(event, "JsonError")
    || Contains(event, "missing field `cmd`")
  }

  /** Errors the error callback drops silently: I/O errors and transient ones. */
  predicate IsBenignRpcError(event: string) {
    Contains(event, "Io Error") || IsTransientRpcError(event)
  }

  /** Any of the three transient markers, wherever it occurs in the event's
      text, makes the event transient and so dropped silently. */
  lemma TransientMarkerAnywhere(before: string, marker: string, after: string)
    requires marker == "Error parsing Json" || marker == "JsonError" || marker == "missing field `cmd`"
    ensures IsTransientRpcError(before + marker + after)
    ensures IsBenignRpcError(before + marker + after)
  {
    var event := before + marker + after;
    assert event[|before|..|before| + |marker|] == marker;
    ContainsAt(event, marker, |before|);
  }

  /** The state line: "<prefix><project> (<time> spent)" with positive hours,
      "<prefix><project>" without, and the idle label when there is no
      project name. */
  function ProjectLine(text: RichPresenceText, project: Option<string>, hours: Option<real>): string {
    match NonEmptyTrimmed(project)
    case Some(name) =>
      if PositiveHours(hours) then
        text.detailsProjectPrefix + name + " (" + FmtHoursShort(hours.value) + " spent)"
      else
        text.detailsProjectPrefix + name
    case None => text.detailsIdle
  }

  /** The referral button's URL: "https://<host>/<code>", or "https://<host>"
      without a code; a blank host falls back to the default one. */
  function ReferralUrl(text: RichPresenceText, referral: Option<string>): string {
    var host := NonEmptyTrimmed(Some(text.referralHost)).GetOr(FallbackReferralHost);
    match NonEmptyTrimmed(referral)
    case Some(code) => "https://" + host + "/" + code
    case None => "https://" + host
  }

  /** `has_activity_payload`: a tagline, a project, positive hours, or the
      referral button, any one of these is something to show. */
  predicate HasActivityPayload(text: RichPresenceText, p: Presence) {
    || !IsBlank(text.statusTagline)
    || NonEmptyTrimmed(p.project).Some?
    || PositiveHours(p.hours)
    || p.showReferralButton
  }

  /** Whether there is a payload does not depend on the session anchor or
      on whether an activity is published. */
  lemma PayloadIgnoresBookkeeping(text: RichPresenceText, p: Presence, start: Option<nat>, published: bool)
    ensures HasActivityPayload(text, p.(sessionStart := start, activityPublished := published))
            == HasActivityPayload(text, p)
  {
  }

  /** The payload `sync` publishes for the presence record `p`. */
  function ComposeActivity(text: RichPresenceText, p: Presence): Activity {
    var tagline := Trim(text.statusTagline);
    Activity(
      if tagline == [] then text.detailsIdle else tagline,
      ProjectLine(text, p.project, p.hours),
      text.brandLabel,
      if tagline != [] && PositiveHours(p.hours) then Some(FmtHours(p.hours.value, text)) else None,
      p.sessionStart,
      if p.showReferralButton then Some(Button(text.referralButton, ReferralUrl(text, p.referral))) else None)
  }

  /** The composed activity, field by field: the trimmed tagline (or the
      idle label) on the first line, the project line on the second, a time
      line only with a tagline and positive hours, the session anchor as
      the start, and a referral button exactly when it is to be shown. */
  lemma ComposedActivityFields(text: RichPresenceText, p: Presence)
    ensures var r := ComposeActivity(text, p);
            && (IsBlank(text.statusTagline) ==> r.details == text.detailsIdle && r.smallText.None?)
            && (!IsBlank(text.statusTagline) ==> r.details == Trim(text.statusTagline))
            && (r.smallText.Some? <==> !IsBlank(text.statusTagline) && PositiveHours(p.hours))
            && (r.smallText.Some? ==> r.smallText.value == FmtHours(p.hours.value, text))
            && r.state == ProjectLine(text, p.project, p.hours)
            && r.largeText == text.brandLabel && r.start == p.sessionStart
            && (r.button.Some? <==> p.showReferralButton)
            && (r.button.Some? ==> r.button.value == Button(text.referralButton, ReferralUrl(text, p.referral)))
  {
  }

  /** Without a payload the composed activity carries only the fixed labels:
      the idle label on both lines, no time line and no button. */
  lemma EmptyPayloadIsIdleActivity(text: RichPresenceText, p: Presence)
    requires !HasActivityPayload(text, p)
    ensures ComposeActivity(text, p) == Activity(text.detailsIdle, text.detailsIdle, text.brandLabel,
                                                 None, p.sessionStart, None)
  {
  }

  /** `update`'s session anchor: kept when already set and there is a
      payload, stamped now when missing, dropped when there is no payload. */
  function NextSessionStart(current: Option<nat>, hasPayload: bool, now: nat): (r: Option<nat>)
    ensures r.Some? <==> hasPayload
    ensures hasPayload && current.Some? ==> r == current
    ensures hasPayload && current.None? ==> r == Some(now)
  {
    if !hasPayload then None
    else if current.Some? then current
    else Some(now)
  }

  /** True when the last publish-or-clear in the log is a publish, i.e. the
      transport was last asked to show an activity. */
  ghost function Published(log: seq<Intent>): bool {
    if log == [] then false
    else match log[|log| - 1]
      case Publish(_) => true
      case Clear => false
      case _ => Published(log[..|log| - 1])
  }

  /** A clear is only ever asked for while an activity is published: no two
      clears without a publish between them. */
  ghost predicate ClearsFollowPublishes(log: seq<Intent>) {
    forall i :: 0 <= i < |log| && log[i].Clear? ==> Published(log[..i])
  }

  lemma AppendIntent(log: seq<Intent>, x: Intent)
    requires ClearsFollowPublishes(log)
    requires x.Clear? ==> Published(log)
    ensures ClearsFollowPublishes(log + [x])
    ensures Published(log + [x]) == (if x.Publish? then true else if x.Clear? then false else Published(log))
  {
    var log' := log + [x];
    assert log'[..|log|] == log;
    forall i | 0 <= i < |log'| && log'[i].Clear? ensures Published(log'[..i]) {
      if i < |log| {
        assert log'[..i] == log[..i];
      }
    }
  }

  lemma {:induction false} ReferralUrlExtendsBareUrl(text: RichPresenceText, code: string)
    requires !IsBlank(code)
    ensures ReferralUrl(text, Some(code)) == ReferralUrl(text, None) + "/" + Trim(code)
    ensures StartsWith(ReferralUrl(text, None), "https://")
  {
    var url := ReferralUrl(text, None);
    assert url[..|"https://"|] == "https://";
  }

  lemma {:induction false} BlankHostFallsBack(text: RichPresenceText)
    requires IsBlank(text.referralHost)
    ensures ReferralUrl(text, None) == "https://" + FallbackReferralHost
  {
  }

  /** Example: an hour and a half reads "1h 30m". */
  lemma {:induction false} NinetyMinutesText()
    ensures FmtHoursShort(1.5) == "1h 30m"
  {
    assert RoundedMinutes(1.5) == 90 by {
      assert (1.5 * 60.0 + 0.5).Floor == 90;
    }
    assert SplitHoursMinutes(1.5) == (1, 30);
    assert NatToString(30) == "30" by {
      assert NatToString(3) == "3";
      assert DigitChar(0) == '0';
    }
    assert NatToString(1) == "1";
  }

  /** Example: project "Widget" for an hour and a half, in any locale. */
  lemma {:induction false} WidgetStateLine(text: RichPresenceText)
    ensures ProjectLine(text, Some("Widget"), Some(1.5)) == text.detailsProjectPrefix + "Widget (1h 30m spent)"
  {
    NinetyMinutesText();
    TrimUnpadded("Widget");
    assert NonEmptyTrimmed(Some("Widget")) == Some("Widget");
    assert "Widget" + " (" + "1h 30m" + " spent)" == "Widget (1h 30m spent)";
  }

  /** Example: unready since `t`, last restarted long ago. Seventeen seconds
      later a restart is not yet due; eighteen seconds later it is. */
  lemma {:induction false} RecoveryBoundary(t: nat, lastRestart: nat)
    requires t > 0 && lastRestart + 25 <= t + 17
    ensures !RecoveryDue(true, false, false, t, lastRestart, t + 17)
    ensures RecoveryDue(true, false, false, t, lastRestart, t + 18)
  {
  }

  class PresenceManager {
    const text: RichPresenceText
    var ready: bool
    var stopping: bool
    var unreadySince: nat
    var lastRestart: nat
    var state: Presence
    ghost var intents: seq<Intent>

    /** The manager's invariant: a ready connection is neither stopping nor
        marked unready; a session anchor exists only alongside a payload; the
        published flag is the last publish-or-clear intent; clears only
        follow publishes. */
    ghost predicate Valid()
      reads this
    {
      && Consistent()
      && (ready ==> unreadySince == 0)
    }

    /** `Valid` without its unready-stamp clause, which `reconnect_now`
        breaks for the moment between its stamp and its `stop`. */
    ghost predicate Consistent()
      reads this
    {
      && (ready ==> !stopping)
      && (state.sessionStart.Some? ==> HasActivityPayload(text, state))
      && state.activityPublished == Published(intents)
      && ClearsFollowPublishes(intents)
    }

    /** `RecoveryDue` on the state at the start of the call. */
    twostate predicate RecoveryWasDue(now: nat)
      reads this
    {
      RecoveryDue(old(state.enabled), old(stopping), old(ready), old(unreadySince), old(lastRestart), now)
    }

    /** `RecoveryDue` on the state at the start of the call, as if enabled. */
    twostate predicate RecoveryWasDueOnceEnabled(now: nat)
      reads this
    {
      RecoveryDue(true, old(stopping), old(ready), old(unreadySince), old(lastRestart), now)
    }

    /** A restart at `now` that leaves the presence record at `before`:
        a shutdown then a fresh connect, both stamps at `now`, and the
        manager left stopping until the old client's shutdown completes. */
    twostate predicate Restarted(now: nat, before: Presence)
      reads this
    {
      && lastRestart == now && unreadySince == now
      && stopping && !ready
      && state == before
      && intents == old(intents) + [Shutdown, Connect]
    }

    /** The publish / clear / no-op decision of `sync` for the presence
        record `before`; the connection fields are untouched. */
    twostate predicate Reconciled(before: Presence)
      reads this
    {
      && ready == old(ready) && stopping == old(stopping)
      && unreadySince == old(unreadySince) && lastRestart == old(lastRestart)
      && if !before.enabled || !old(ready) then
           state == before && intents == old(intents)
         else if !HasActivityPayload(text, before) then
           && state == before.(activityPublished := false)
           && intents == old(intents) + (if before.activityPublished then [Clear] else [])
         else
           && state == before.(activityPublished := true)
           && intents == old(intents) + [Publish(ComposeActivity(text, before))]
    }

    /** `DiscordPresenceManager::new`: not started, not ready, enabled. */
    constructor (text: RichPresenceText)
      ensures Valid()
      ensures this.text == text
      ensures !ready && !stopping && unreadySince == 0 && lastRestart == 0
      ensures state == InitialPresence && intents == []
    {
      this.text := text;
      ready, stopping := false, false;
      unreadySince, lastRestart := 0, 0;
      state := InitialPresence;
      intents := [];
    }

    function IsReady(): bool
      reads this
    {
      ready
    }

    /** `is_active`: enabled, connected and something to show. */
    function IsActive(): (r: bool)
      reads this
      ensures r <==> state.enabled && ready && HasActivityPayload(text, state)
    {
      state.enabled && ready && HasActivityPayload(text, state)
    }

    /** `start`: marks the connection unready since `now` and connects. */
    method Start(now: nat)
      requires Valid()
      modifies this
      ensures Valid()
      ensures !ready && unreadySince == now
      ensures stopping == old(stopping) && lastRestart == old(lastRestart) && state == old(state)
      ensures intents == old(intents) + [Connect]
    {
      ready := false;
      unreadySince := now;
      AppendIntent(intents, Connect);
      intents := intents + [Connect];
    }

    /** The ready callback. */
    method OnReady()
      requires Valid()
      modifies this
      ensures Valid()
      ensures ready && !stopping && unreadySince == 0
      ensures lastRestart == old(lastRestart) && state == old(state) && intents == old(intents)
    {
      ready := true;
      stopping := false;
      unreadySince := 0;
    }

    /** The disconnected callback: the unready stamp is taken only on the
        transition out of ready. */
    method OnDisconnected(now: nat)
      requires Valid()
      modifies this
      ensures Valid()
      ensures !ready
      ensures unreadySince == if old(ready) then now else old(unreadySince)
      ensures stopping == old(stopping) && lastRestart == old(lastRestart)
      ensures state == old(state) && intents == old(intents)
    {
      var wasReady := ready;
      ready := false;
      if wasReady {
        unreadySince := now;
      }
    }

    /** The error callback. It updates readiness like a disconnect and
        reports the error unless the manager is stopping or the error is
        benign. */
    method OnError(now: nat, event: string) returns (reported: bool)
      requires Valid()
      modifies this
      ensures Valid()
      ensures !ready
      ensures unreadySince == if old(ready) then now else old(unreadySince)
      ensures stopping == old(stopping) && lastRestart == old(lastRestart)
      ensures state == old(state) && intents == old(intents)
      ensures reported <==> !old(stopping) && !IsBenignRpcError(event)
    {
      var wasReady := ready;
      ready := false;
      if wasReady {
        unreadySince := now;
      }
      if stopping {
        return false;
      }
      reported := !IsBenignRpcError(event);
    }

    /** The end of the detached shutdown worker started by `stop`. */
    method OnShutdownComplete()
      requires Valid()
      modifies this
      ensures Valid()
      ensures !stopping
      ensures ready == old(ready) && unreadySince == old(unreadySince)
      ensures lastRestart == old(lastRestart) && state == old(state) && intents == old(intents)
    {
      stopping := false;
    }

    /** `stop`: a no-op while a shutdown is in flight; otherwise it marks the
        manager stopping and hands the old client to a shutdown worker. */
    method Stop()
      requires Consistent()
      modifies this
      ensures Valid()
      ensures old(stopping) ==> unchanged(this)
      ensures !old(stopping) ==>
                && stopping && !ready && unreadySince == 0
                && lastRestart == old(lastRestart) && state == old(state)
                && intents == old(intents) + [Shutdown]
    {
      if stopping {
        return;
      }
      stopping := true;
      ready := false;
      unreadySince := 0;
      AppendIntent(intents, Shutdown);
      intents := intents + [Shutdown];
    }

    /** The part of `sync` after its opening `maybe_recover`: publish when
        there is a payload, clear a published payload when there is none,
        nothing while disabled or unready. */
    method SyncPayload()
      requires Valid()
      modifies this
      ensures Valid()
      ensures Reconciled(old(state))
    {
      if !state.enabled || !ready {
        return;
      }
      if !HasActivityPayload(text, state) {
        ClearActivity();
      } else {
        PublishActivity();
      }
    }

    /** The clear branch of `sync`: a clear only when something is published. */
    method ClearActivity()
      requires Valid() && !HasActivityPayload(text, state)
      modifies this`state, this`intents
      ensures Valid()
      ensures state == old(state).(activityPublished := false)
      ensures intents == old(intents) + (if old(state).activityPublished then [Clear] else [])
    {
      if state.activityPublished {
        AppendIntent(intents, Clear);
        intents := intents + [Clear];
        state := state.(activityPublished := false);
      }
    }

    /** The publish branch of `sync`: the composed activity is published. */
    method PublishActivity()
      requires Valid()
      modifies this`state, this`intents
      ensures Valid()
      ensures state == old(state).(activityPublished := true)
      ensures intents == old(intents) + [Publish(ComposeActivity(text, old(state)))]
    {
      var activity := ComposeActivity(text, state);
      AppendIntent(intents, Publish(activity));
      PayloadIgnoresBookkeeping(text, state, state.sessionStart, true);
      intents := intents + [Publish(activity)];
      state := state.(activityPublished := true);
    }

    /** `maybe_recover`: restarts the client when `RecoveryDue`, and does
        nothing otherwise. */
    method MaybeRecover(now: nat)
      requires Valid()
      modifies this
      ensures Valid()
      ensures RecoveryWasDue(now) ==> Restarted(now, old(state))
      ensures !RecoveryWasDue(now) ==> unchanged(this)
    {
      if !state.enabled || stopping || ready {
        return;
      }
      if unreadySince == 0 {
        return;
      }
      if SatSub(now, unreadySince) < MinUnreadySeconds {
        return;
      }
      if SatSub(now, lastRestart) < MinRestartGapSeconds {
        return;
      }
      lastRestart := now;
      unreadySince := 0;
      Stop();
      Start(now);
      // The trailing `sync` begins with `maybe_recover`, which returns at
      // once because the manager is now stopping.
      SyncPayload();
    }

    /** `sync` (and `refresh_activity`): first `maybe_recover`, then the
        publish / clear decision. */
    method Sync(now: nat)
      requires Valid()
      modifies this
      ensures Valid()
      ensures RecoveryWasDue(now) ==> Restarted(now, old(state))
      ensures !RecoveryWasDue(now) ==> Reconciled(old(state))
    {
      MaybeRecover(now);
      SyncPayload();
    }

    /** `reconnect_now`: skips the debounce; a no-op only while stopping. */
    method ReconnectNow(now: nat)
      requires Valid()
      modifies this
      ensures Valid()
      ensures old(stopping) ==> unchanged(this)
      ensures !old(stopping) ==> Restarted(now, old(state))
    {
      if stopping {
        return;
      }
      lastRestart := now;
      unreadySince := now;
      Stop();
      Start(now);
    }

    /** `force_refresh`: a reconnect and a resync, unless disabled or
        stopping. */
    method ForceRefresh(now: nat)
      requires Valid()
      modifies this
      ensures Valid()
      ensures !old(state.enabled) || old(stopping) ==> unchanged(this)
      ensures old(state.enabled) && !old(stopping) ==> Restarted(now, old(state))
    {
      if !state.enabled || stopping {
        return;
      }
      ReconnectNow(now);
      Sync(now);
    }

    /** `update`: replaces the four payload fields, keeps or stamps or drops
        the session anchor, then syncs. */
    method Update(now: nat, project: Option<string>, hours: Option<real>,
                  referral: Option<string>, showReferralButton: bool)
      requires Valid()
      modifies this
      ensures Valid()
      ensures var staged := old(state).(project := project, hours := hours, referral := referral,
                                        showReferralButton := showReferralButton);
              var before := staged.(sessionStart :=
                NextSessionStart(old(state.sessionStart), HasActivityPayload(text, staged), now));
              && (RecoveryWasDue(now) ==> Restarted(now, before))
              && (!RecoveryWasDue(now) ==> Reconciled(before))
    {
      Stage(now, project, hours, referral, showReferralButton);
      Sync(now);
    }

    /** The record half of `update`: the four fields replaced and the
        session anchor kept, stamped or dropped. */
    method Stage(now: nat, project: Option<string>, hours: Option<real>,
                 referral: Option<string>, showReferralButton: bool)
      requires Valid()
      modifies this`state
      ensures Valid()
      ensures var staged := old(state).(project := project, hours := hours, referral := referral,
                                        showReferralButton := showReferralButton);
              state == staged.(sessionStart :=
                NextSessionStart(old(state.sessionStart), HasActivityPayload(text, staged), now))
    {
      state := state.(project := project, hours := hours, referral := referral,
                      showReferralButton := showReferralButton);
      var hasPayload := HasActivityPayload(text, state);
      ghost var staged := state;
      if hasPayload {
        if state.sessionStart.None? {
          state := state.(sessionStart := Some(now));
        }
      } else {
        state := state.(sessionStart := None);
      }
      PayloadIgnoresBookkeeping(text, staged, state.sessionStart, staged.activityPublished);
    }

    /** `set_enabled`. Disabling drops the session anchor and clears a
        published payload (once: the flag is lowered with the clear).
        Enabling tries a recovery and then syncs. */
    method SetEnabled(now: nat, enabled: bool)
      requires Valid()
      modifies this
      ensures Valid()
      ensures !enabled ==>
                && state == old(state).(enabled := false, sessionStart := None, activityPublished := false)
                && intents == old(intents) + (if old(state.activityPublished) then [Clear] else [])
                && ready == old(ready) && stopping == old(stopping)
                && unreadySince == old(unreadySince) && lastRestart == old(lastRestart)
      ensures enabled && RecoveryWasDueOnceEnabled(now) ==> Restarted(now, old(state).(enabled := true))
      ensures enabled && !RecoveryWasDueOnceEnabled(now) ==> Reconciled(old(state).(enabled := true))
    {
      state := state.(enabled := enabled);
      if enabled {
        MaybeRecover(now);
        Sync(now);
      } else {
        state := state.(sessionStart := None);
        if state.activityPublished {
          AppendIntent(intents, Clear);
          intents := intents + [Clear];
          state := state.(activityPublished := false);
        }
      }
    }
  }
}

=== FILE: pyramid.dfy ===
/** The referral-code lookup (`fetch_codes`): how its reply becomes the list
    of available codes. */
module Pyramid {
  import opened Wrappers
  import opened Http
  import opened Configuration

  /** A code entry as decoded; either field may be missing. */
  datatype RawCode = RawCode(code: Option<string>, codeType: Option<string>)

  datatype LookupBody = LookupBody(error: Option<string>, codes: seq<RawCode>)

  predicate IsComplete(item: RawCode) {
    item.code.Some? && item.codeType.Some?
  }

  /** The entries that have both a code and a type, in their order. */
  function CompleteCodes(items: seq<RawCode>): (r: seq<Referral>)
    ensures |r| <= |items|
    ensures forall x :: x in r <==> RawCode(Some(x.code), Some(x.codeType)) in items
  {
    if items == [] then []
    else
      var rest := CompleteCodes(items[1..]);
      assert forall x :: x in items <==> x == items[0] || x in items[1..];
      if IsComplete(items[0]) then [Referral(items[0].code.value, items[0].codeType.value)] + rest
      else rest
  }

  /** The filter keeps the input order: it distributes over concatenation. */
  lemma {:induction false} CompleteCodesAppend(a: seq<RawCode>, b: seq<RawCode>)
    ensures CompleteCodes(a + b) == CompleteCodes(a) + CompleteCodes(b)
  {
    if a != [] {
      assert (a + b)[1..] == a[1..] + b;
      CompleteCodesAppend(a[1..], b);
    } else {
      assert a + b == b;
    }
  }

  /** `fetch_codes` after the reply is in: a failure status is an error; a
      reported error is one too, except "User not found", which means no
      codes; otherwise the complete entries. */
  function FetchCodes(r: Response<LookupBody>): (o: Result<seq<Referral>, string>)
    ensures r.Http? && !IsSuccess(r.status) ==> o == Err("Referral lookup failed: " + r.statusText)
    ensures r.Http? && IsSuccess(r.status) && r.decoded.Ok? && r.decoded.value.error == Some("User not found") ==>
              o == Ok([])
    ensures (r.Http? && IsSuccess(r.status) && r.decoded.Ok? && r.decoded.value.error.Some? &&
             r.decoded.value.error != Some("User not found")) ==> o == Err(r.decoded.value.error.value)
    ensures r.Http? && IsSuccess(r.status) && r.decoded.Ok? && r.decoded.value.error.None? ==>
              o == Ok(CompleteCodes(r.decoded.value.codes))
    ensures o.Ok? && o.value != [] ==> r.Http? && r.decoded.Ok? && r.decoded.value.error.None?
    ensures r.NetworkError? ==> o == Err(r.message)
    ensures r.Http? && IsSuccess(r.status) && r.decoded.Err? ==> o == Err(r.decoded.error)
  {
    match r
    case NetworkError(message) => Err(message)
    case Http(status, statusText, _, decoded) =>
      if !IsSuccess(status) then Err("Referral lookup failed: " + statusText)
      else match decoded
        case Err(e) => Err(e)
        case Ok(body) =>
          match body.error
          case Some(error) => if error == "User not found" then Ok([]) else Err(error)
          case None => Ok(CompleteCodes(body.codes))
  }
}

=== FILE: text.dfy ===
/** String helpers shared by the model: Rust's `str::trim`, prefix and
    substring tests, splitting and joining on one separator, and decimal
    rendering of counts (what `format!("{n}")` prints for an unsigned n). */
module Text {
  import opened Wrappers

  /** The Unicode White_Space property, which is what Rust's `str::trim` strips. */
  predicate IsWhitespace(c: char) {
    || ('\t' <= c <= '\r')
    || c == ' '
    || c == '\U{0085}'
    || c == '\U{00A0}'
    || c == '\U{1680}'
    || ('\U{2000}' <= c <= '\U{200A}')
    || c == '\U{2028}'
    || c == '\U{2029}'
    || c == '\U{202F}'
    || c == '\U{205F}'
    || c == '\U{3000}'
  }

  predicate AllWhitespace(s: string) {
    forall i :: 0 <= i < |s| ==> IsWhitespace(s[i])
  }

  /** `str::trim_start`: drops the leading whitespace and nothing else. */
  function TrimStart(s: string): (r: string)
    ensures |r| <= |s| && r == s[|s| - |r|..]
    ensures r == [] || !IsWhitespace(r[0])
    ensures AllWhitespace(s[..|s| - |r|])
  {
    if s != [] && IsWhitespace(s[0]) then TrimStart(s[1..]) else s
  }

  /** `str::trim_end`: drops the trailing whitespace and nothing else. */
  function TrimEnd(s: string): (r: string)
    ensures |r| <= |s| && r == s[..|r|]
    ensures r == [] || !IsWhitespace(r[|r| - 1])
    ensures AllWhitespace(s[|r|..])
  {
    if s != [] && IsWhitespace(s[|s| - 1]) then
      var t := s[..|s| - 1];
      var r := TrimEnd(t);
      assert r == s[..|r|] by { assert t[..|r|] == s[..|r|]; }
      assert s[|r|..] == t[|r|..] + [s[|s| - 1]];
      r
    else s
  }

  /** `str::trim`: what is left of `s` once the whitespace at both ends is
      dropped. It is a prefix of `TrimStart(s)`, which is itself a suffix of `s`. */
  function Trim(s: string): (r: string)
    ensures |r| <= |TrimStart(s)| && r == TrimStart(s)[..|r|]
    ensures r == [] || (!IsWhitespace(r[0]) && !IsWhitespace(r[|r| - 1]))
    ensures AllWhitespace(s[..|s| - |TrimStart(s)|])
    ensures AllWhitespace(TrimStart(s)[|r|..])
  {
    TrimEnd(TrimStart(s))
  }

  /** A string that trims to nothing is blank; `value.trim().is_empty()`. */
  predicate IsBlank(s: string) {
    Trim(s) == []
  }

  lemma {:induction false} BlankIffAllWhitespace(s: string)
    ensures IsBlank(s) <==> AllWhitespace(s)
  {
    var k := |s| - |TrimStart(s)|;
    if IsBlank(s) {
      assert s == s[..k] + s[k..];
    } else {
      var r := Trim(s);
      assert s[k] == r[0];
    }
  }

  /** A string with no whitespace at either end trims to itself. */
  lemma TrimUnpadded(s: string)
    requires s == [] || (!IsWhitespace(s[0]) && !IsWhitespace(s[|s| - 1]))
    ensures Trim(s) == s
  {
    if s != [] {
      assert TrimStart(s) == s;
      assert TrimEnd(s) == s;
    }
  }

  lemma {:induction false} TrimIdempotent(s: string)
    ensures Trim(Trim(s)) == Trim(s)
  {
    TrimUnpadded(Trim(s));
  }

  /** `non_empty_trimmed` (and `trimmed` in the command layer): the trimmed
      text, or nothing when the value is absent or blank. */
  function NonEmptyTrimmed(value: Option<string>): (r: Option<string>)
    ensures r.Some? <==> value.Some? && !IsBlank(value.value)
    ensures r.Some? ==> r.value == Trim(value.value) && r.value != []
  {
    match value
    case None => None
    case Some(v) => if IsBlank(v) then None else Some(Trim(v))
  }

  /** `str::starts_with`. */
  predicate StartsWith(s: string, prefix: string) {
    |prefix| <= |s| && s[..|prefix|] == prefix
  }

  /** `str::contains` for a string pattern. */
  predicate Contains(s: string, pattern: string)
    decreases |s|
  {
    StartsWith(s, pattern) || (s != [] && Contains(s[1..], pattern))
  }

  lemma {:induction false} ContainsAt(s: string, pattern: string, k: nat)
    requires k + |pattern| <= |s| && s[k..k + |pattern|] == pattern
    ensures Contains(s, pattern)
    decreases k
  {
    if k > 0 {
      assert s[1..][k - 1..k - 1 + |pattern|] == s[k..k + |pattern|];
      ContainsAt(s[1..], pattern, k - 1);
    }
  }

  /** JavaScript's `String.prototype.split` with a one-character separator:
      always at least one part, and no part holds the separator. */
  function Split(s: string, sep: char): (parts: seq<string>)
    ensures |parts| >= 1
    ensures forall i :: 0 <= i < |parts| ==> sep !in parts[i]
    decreases |s|
  {
    if s == [] then [[]]
    else if s[0] == sep then [[]] + Split(s[1..], sep)
    else
      var rest := Split(s[1..], sep);
      [[s[0]] + rest[0]] + rest[1..]
  }

  /** `join` with a one-character separator. */
  function Join(parts: seq<string>, sep: char): (r: string)
    ensures |parts| == 1 ==> r == parts[0]
  {
    if parts == [] then []
    else if |parts| == 1 then parts[0]
    else parts[0] + [sep] + Join(parts[1..], sep)
  }

  lemma {:induction false} JoinSplit(s: string, sep: char)
    ensures Join(Split(s, sep), sep) == s
    decreases |s|
  {
    if s == [] {
    } else if s[0] == sep {
      JoinSplit(s[1..], sep);
      assert s == [sep] + s[1..];
    } else {
      var rest := Split(s[1..], sep);
      JoinSplit(s[1..], sep);
      if |rest| == 1 {
        assert s == [s[0]] + rest[0];
      } else {
        assert Join(rest, sep) == rest[0] + [sep] + Join(rest[1..], sep);
        assert s == [s[0]] + s[1..];
      }
    }
  }

  lemma {:induction false} SplitJoin(parts: seq<string>, sep: char)
    requires |parts| >= 1
    requires forall i :: 0 <= i < |parts| ==> sep !in parts[i]
    ensures Split(Join(parts, sep), sep) == parts
    decreases |parts|, |parts[0]|
  {
    var head := parts[0];
    if head == [] {
      if |parts| > 1 {
        SplitJoin(parts[1..], sep);
        assert Join(parts, sep) == [sep] + Join(parts[1..], sep);
        assert parts == [[]] + parts[1..];
      }
    } else {
      var shorter := [head[1..]] + parts[1..];
      assert sep !in shorter[0] by {
        forall i | 0 <= i < |head[1..]| ensures head[1..][i] != sep {
          assert head[1..][i] == head[i + 1];
        }
      }
      assert forall i :: 1 <= i < |shorter| ==> shorter[i] == parts[i];
      SplitJoin(shorter, sep);
      if |parts| == 1 {
        assert Join(parts, sep) == [head[0]] + Join(shorter, sep);
      } else {
        assert shorter[1..] == parts[1..];
        assert Join(parts, sep) == [head[0]] + Join(shorter, sep);
      }
      assert head == [head[0]] + head[1..];
    }
  }

  predicate IsDigit(c: char) {
    '0' <= c <= '9'
  }

  function DigitChar(d: nat): (c: char)
    requires d < 10
    ensures IsDigit(c) && (c as int) - ('0' as int) == d
  {
    (('0' as int) + d) as char
  }

  /** The value of a string of decimal digits. */
  function DigitsValue(s: string): nat
    requires forall i :: 0 <= i < |s| ==> IsDigit(s[i])
  {
    if s == [] then 0
    else
      assert IsDigit(s[|s| - 1]);
      DigitsValue(s[..|s| - 1]) * 10 + ((s[|s| - 1] as int) - ('0' as int))
  }

  /** Decimal rendering of a count, as Rust's `{}` and JavaScript's template
      strings print a non-negative integer: digits only, no leading zero. */
  function NatToString(n: nat): (r: string)
    ensures |r| >= 1
    ensures forall i :: 0 <= i < |r| ==> IsDigit(r[i])
    ensures r[0] == '0' ==> n == 0 && r == "0"
  {
    if n < 10 then [DigitChar(n)] else NatToString(n / 10) + [DigitChar(n % 10)]
  }

  lemma {:induction false} NatToStringRoundTrip(n: nat)
    ensures DigitsValue(NatToString(n)) == n
  {
    if n >= 10 {
      NatToStringRoundTrip(n / 10);
      var r := NatToString(n);
      assert r[..|r| - 1] == NatToString(n / 10);
    }
  }

  /** Decimal rendering of a signed integer: a minus sign before the digits of
      a negative value. */
  function IntToString(i: int): (r: string)
    ensures i >= 0 ==> r == NatToString(i)
    ensures i < 0 ==> r == "-" + NatToString(-i)
  {
    if i >= 0 then NatToString(i) else "-" + NatToString(-i)
  }

  /** "<h>h <m>m" when there is a whole hour, "<m>m" otherwise: the duration
      format shared by the presence line, the tray menu and the dashboard. */
  function DurationText(hours: int, minutes: int): string {
    if hours > 0 then IntToString(hours) + "h " + IntToString(minutes) + "m"
    else IntToString(minutes) + "m"
  }
}

=== FILE: tray.dfy ===
/** The tray menu: the day's total as text, and the status texts the tray
    polling loop remembers between polls. The menu items, the tooltip and
    the window are outputs here; sleeping is the returned delay. */
module Tray {
  import opened Wrappers
  import opened Text
  import opened Configuration
  import opened Hackatime
  import Commands

  const NoDataText := "No data yet"
  const NoProjectText := "No active project"
  const U32Max: nat := 0xFFFF_FFFF

  /** `(total_seconds.max(0.0) / 60.0).floor() as u32`: whole minutes,
      rounded down, never negative, saturating at `u32::MAX`. */
  function WholeMinutes(totalSeconds: real): (m: nat)
    ensures m <= U32Max
    ensures totalSeconds <= 0.0 ==> m == 0
    ensures 0.0 <= totalSeconds < (U32Max as real) * 60.0 ==>
              (m as real) * 60.0 <= totalSeconds < (m as real + 1.0) * 60.0
    ensures totalSeconds >= (U32Max as real) * 60.0 ==> m == U32Max
  {
    var x := (if totalSeconds >= 0.0 then totalSeconds else 0.0) / 60.0;
    if x.Floor >= U32Max then U32Max else x.Floor
  }

  /** `format_hours`: "<h>h <m>m today", or "<m>m today" under an hour. */
  function FormatHours(totalSeconds: real): (r: string)
    ensures var m := WholeMinutes(totalSeconds);
            && (m < 60 ==> r == NatToString(m) + "m today")
            && (m >= 60 ==> r == NatToString(m / 60) + "h " + NatToString(m % 60) + "m today")
  {
    var totalMinutes := WholeMinutes(totalSeconds);
    MinutesTextReadsBack(totalMinutes);
    DurationText(totalMinutes / 60, totalMinutes % 60) + " today"
  }

  /** A minute count as "<h>h <m>m" or "<m>m": under an hour the number is
      the count, above it the two numbers read back as the count's quotient
      and remainder by 60. */
  lemma {:induction false} MinutesTextReadsBack(m: nat)
    ensures m < 60 ==> DurationText(m / 60, m % 60) == NatToString(m) + "m"
    ensures m >= 60 ==> DurationText(m / 60, m % 60) == NatToString(m / 60) + "h " + NatToString(m % 60) + "m"
    ensures DigitsValue(NatToString(m / 60)) * 60 + DigitsValue(NatToString(m % 60)) == m
  {
    NatToStringRoundTrip(m / 60);
    NatToStringRoundTrip(m % 60);
  }

  /** The tray shows exactly the whole minutes: the hour and minute numbers
      of `FormatHours` read back as the minute count's quotient and
      remainder by 60. */
  lemma {:induction false} FormatHoursReadsBack(totalSeconds: real)
    ensures var m := WholeMinutes(totalSeconds);
            DigitsValue(NatToString(m / 60)) * 60 + DigitsValue(NatToString(m % 60)) == m
  {
    MinutesTextReadsBack(WholeMinutes(totalSeconds));
  }

  /** Negative totals read as no time at all. */
  lemma FormatHoursClampsNegative(totalSeconds: real)
    requires totalSeconds <= 0.0
    ensures FormatHours(totalSeconds) == FormatHours(0.0)
  {
  }

  /** The project line of the menu. */
  function ProjectText(latest: Option<(string, nat)>): (r: string)
    ensures latest.None? ==> r == NoProjectText
    ensures latest.Some? ==> r == "Working on " + latest.value.0
  {
    match latest
    case Some((project, _)) => "Working on " + project
    case None => "No active project"
  }

  /** What the loop puts in the menu and the tooltip. */
  datatype MenuTexts = MenuTexts(time: string, project: string, tooltip: string)

  const PollSeconds: nat := 20
  const StartupRetrySeconds: nat := 2
  const Brand := "Flavortime"

  /** The tooltip in Hackatime mode: the brand, an em dash and the time. */
  function TimeTooltip(timeText: string): string {
    Brand + " \U{2014} " + timeText
  }

  /** The state of the tray polling loop. */
  class TrayStatus {
    var lastTimeText: string
    var lastProjectText: string

    constructor ()
      ensures lastTimeText == NoDataText && lastProjectText == NoProjectText
    {
      lastTimeText := NoDataText;
      lastProjectText := NoProjectText;
    }

    /** `reset_status_texts`. */
    method ResetStatusTexts()
      modifies this
      ensures lastTimeText == NoDataText && lastProjectText == NoProjectText
    {
      lastTimeText := NoDataText;
      lastProjectText := NoProjectText;
    }

    /** One turn of the loop. `auth` is the mode and Slack id read from the
        configuration (None while the state is not available yet), and
        `fetched` the reply of the project-details request in Hackatime mode.
        Returns the menu texts and the seconds to sleep. */
    method Poll(auth: Option<(Mode, Option<string>)>, fetched: Result<seq<ProjectDetails>, string>)
      returns (menu: MenuTexts, delay: nat)
      modifies this
      ensures auth.None? ==>
                && menu == MenuTexts("Starting Flavortime...", "Loading status...", Brand)
                && delay == StartupRetrySeconds
                && lastTimeText == old(lastTimeText) && lastProjectText == old(lastProjectText)
      ensures auth.Some? && auth.value.0.Hackatime? && auth.value.1.Some? ==>
                && (fetched.Ok? ==>
                      && lastTimeText == FormatHours(Commands.TotalSeconds(fetched.value))
                      && lastProjectText == ProjectText(LatestProject(fetched.value, None)))
                && (fetched.Err? ==> lastTimeText == old(lastTimeText) && lastProjectText == old(lastProjectText))
                && menu == MenuTexts(lastTimeText, lastProjectText, TimeTooltip(lastTimeText))
                && delay == PollSeconds
      ensures auth.Some? && !(auth.value.0.Hackatime? && auth.value.1.Some?) ==>
                && lastTimeText == NoDataText && lastProjectText == NoProjectText
                && delay == PollSeconds
                && menu == match auth.value.0
                           case Adult => MenuTexts("Adult mode (no Hackatime)", NoProjectText, Brand)
                           case Hackatime => MenuTexts("Flavortime disconnected", "Open Flavortime to reconnect", Brand)
                           case Unset => MenuTexts("Not signed in", NoProjectText, Brand)
    {
      if auth.None? {
        return MenuTexts("Starting Flavortime...", "Loading status...", Brand), StartupRetrySeconds;
      }
      var (mode, slackId) := auth.value;
      match mode {
        case Hackatime =>
          if slackId.Some? {
            if fetched.Ok? {
              lastTimeText := FormatHours(Commands.TotalSeconds(fetched.value));
              lastProjectText := ProjectText(LatestProject(fetched.value, None));
            }
            menu := MenuTexts(lastTimeText, lastProjectText, TimeTooltip(lastTimeText));
          } else {
            ResetStatusTexts();
            menu := MenuTexts("Flavortime disconnected", "Open Flavortime to reconnect", Brand);
          }
        case Adult =>
          ResetStatusTexts();
          menu := MenuTexts("Adult mode (no Hackatime)", NoProjectText, Brand);
        case Unset =>
          ResetStatusTexts();
          menu := MenuTexts("Not signed in", NoProjectText, Brand);
      }
      delay := PollSeconds;
    }
  }
}

=== FILE: webapp.dfy ===
/** The pure helpers of the dashboard script: the hour format of the
    statistics, the default referral code and the selection shown in the
    referral list, the Rich Presence badge and its fallback status, and the
    login error text. */
module WebApp {
  import opened Wrappers
  import opened Text
  import opened Configuration
  import Presence

  /** `Math.round`: the nearest integer, halves rounded up. */
  function JsRound(x: real): (r: int)
    ensures (r as real) - 0.5 <= x < (r as real) + 0.5
  {
    (x + 0.5).Floor
  }

  /** JavaScript's `a % 60`: the remainder takes the sign of the
      dividend. */
  function JsRem60(a: int): (r: int)
    ensures a >= 0 ==> r == a % 60
    ensures a < 0 ==> -60 < r <= 0 && (a - r) % 60 == 0
  {
    if a >= 0 then a % 60 else -((-a) % 60)
  }

  /** `formatHours(totalHours)`: "Hh Mm" when the whole hours are positive,
      "Mm" otherwise, from the rounded minute count.
      On the totals the presence line can show, it prints the same text as
      the presence line. */
  function FormatHours(totalHours: real): (r: string)
    ensures 0.0 <= totalHours * 60.0 < Presence.U32Max as real ==> r == Presence.FmtHoursShort(totalHours)
  {
    var totalMinutes := JsRound(totalHours * 60.0);
    assert 0.0 <= totalHours * 60.0 < Presence.U32Max as real ==>
             totalMinutes == Presence.RoundedMinutes(totalHours);
    var hours := totalMinutes / 60;
    var minutes := JsRem60(totalMinutes);
    DurationText(hours, minutes)
  }

  /** Negative totals are not clamped as in the presence line: half an hour
      below zero reads "-30m", and an hour and a half below zero reads the
      same, because the hour part is dropped when it is not positive. */
  lemma FormatHoursNegative()
    ensures FormatHours(-0.5) == "-30m"
    ensures FormatHours(-1.5) == "-30m"
    ensures Presence.FmtHoursShort(-0.5) == "0m"
  {
    assert JsRound(-0.5 * 60.0) == -30;
    assert JsRound(-1.5 * 60.0) == -90;
    assert NatToString(30) == "30" by {
      assert DigitChar(3) == '3' && DigitChar(0) == '0';
    }
    assert NatToString(0) == "0";
  }

  /** `pickDefaultReferralCode`: null for no codes, else the first custom
      code, else the first code. */
  function PickDefaultReferralCode(codes: seq<Referral>): (r: Option<string>)
    ensures r.None? <==> codes == []
    ensures (exists i :: 0 <= i < |codes| && codes[i].codeType == "custom") ==>
              exists i :: 0 <= i < |codes| && codes[i].codeType == "custom"
                          && (forall j :: 0 <= j < i ==> codes[j].codeType != "custom")
                          && r == Some(codes[i].code)
    ensures codes != [] && (forall i :: 0 <= i < |codes| ==> codes[i].codeType != "custom") ==>
              r == Some(codes[0].code)
  {
    if codes == [] then None
    else match FirstCustomIndex(codes)
      case Some(i) => Some(codes[i].code)
      case None => Some(codes[0].code)
  }

  /** The dashboard's default is the backend's preferred code. */
  lemma PickDefaultIsPreferredCode(codes: seq<Referral>)
    ensures PickDefaultReferralCode(codes) == PreferredCode(codes)
  {
  }

  /** The code `renderReferralSelect` marks as selected: none without codes,
      the saved selection when it is available, else the default. */
  function ReferralSelection(codes: seq<Referral>, saved: Option<string>): (r: Option<string>)
    ensures r.None? <==> codes == []
    ensures saved.Some? && IsAvailable(saved.value, codes) ==> r == saved
    ensures r.Some? ==> IsAvailable(r.value, codes)
    ensures codes != [] && !(saved.Some? && IsAvailable(saved.value, codes)) ==>
              r == PickDefaultReferralCode(codes)
  {
    if codes == [] then None
    else if saved.Some? && IsAvailable(saved.value, codes) then saved
    else PickDefaultReferralCode(codes)
  }

  /** The list shows the code the backend keeps selected. */
  lemma ReferralSelectionMatchesBackend(codes: seq<Referral>, saved: Option<string>)
    ensures ReferralSelection(codes, saved) == EnsureSelection(saved, codes).0
  {
    PickDefaultIsPreferredCode(codes);
  }

  /** The status object the dashboard receives from `get_discord_status`. */
  datatype RpcStatus = RpcStatus(connected: bool, enabled: bool, active: bool,
                                 flatpakDiscordDetected: bool, stalled: bool)

  /** `isRpcWaiting`. */
  predicate IsRpcWaiting(status: RpcStatus) {
    !status.stalled && status.enabled && !status.connected && !status.active
  }

  /** The label key and the active class `setRpcBadge` applies. */
  datatype Badge = Badge(labelKey: string, active: bool)

  function RpcBadge(status: RpcStatus): (b: Badge)
    ensures status.stalled ==> b.labelKey == "rpc.inactive" && !b.active
    ensures b.active <==> status.active && !status.stalled
    ensures !status.stalled && status.active ==> b.labelKey == "rpc.active"
    ensures !status.stalled && !status.active && !status.enabled ==> b.labelKey == "rpc.disabled"
    ensures !status.stalled && !status.active && status.enabled && status.connected ==> b.labelKey == "rpc.inactive"
  {
    var labelKey :=
      if status.stalled then "rpc.inactive"
      else if status.active then "rpc.active"
      else if !status.enabled then "rpc.disabled"
      else if status.connected then "rpc.inactive"
      else "rpc.waiting";
    Badge(labelKey, status.active && !status.stalled)
  }

  /** The badge says "waiting" exactly when the waiting animation runs, and
      it is styled active exactly when it says "active". */
  lemma BadgeAgreesWithWaiting(status: RpcStatus)
    ensures RpcBadge(status).labelKey == "rpc.waiting" <==> IsRpcWaiting(status)
    ensures RpcBadge(status).active <==> RpcBadge(status).labelKey == "rpc.active"
  {
  }

  /** `fallbackRpcStatus`: the status shown when the backend does not
      answer, built from the last known status. */
  function FallbackRpcStatus(last: RpcStatus, stalled: bool): (r: RpcStatus)
    ensures !r.connected && !r.active && !r.flatpakDiscordDetected
    ensures r.enabled == last.enabled
    ensures r.stalled <==> stalled && last.enabled
  {
    RpcStatus(false, last.enabled, false, false, stalled && last.enabled)
  }

  /** The fallback badge is never active: disabled when the last status was
      disabled, inactive when stalled, and waiting otherwise. */
  lemma FallbackBadge(last: RpcStatus, stalled: bool)
    ensures var b := RpcBadge(FallbackRpcStatus(last, stalled));
            && !b.active
            && (!last.enabled ==> b.labelKey == "rpc.disabled")
            && (last.enabled && stalled ==> b.labelKey == "rpc.inactive")
            && (last.enabled && !stalled ==> b.labelKey == "rpc.waiting")
  {
  }

  /** What `formatLoginError` may receive: a string, an object with a
      `message` (absent or not a string: None), or anything else. */
  datatype LoginError = ErrText(text: string) | ErrObject(message: Option<string>) | ErrOther

  /** `typeof err === 'string' ? err : err?.message`. */
  function Detail(err: LoginError): Option<string> {
    match err
    case ErrText(text) => Some(text)
    case ErrObject(message) => message
    case ErrOther => None
  }

  /** `formatLoginError`: the base message alone without a detail (an empty
      detail counts as none), otherwise "base: detail". */
  function FormatLoginError(baseMessage: string, err: LoginError): (r: string)
    ensures Detail(err).None? || Detail(err) == Some("") ==> r == baseMessage
    ensures Detail(err).Some? && Detail(err).value != "" ==>
              r == baseMessage + ": " + Detail(err).value
    ensures StartsWith(r, baseMessage)
  {
    var detail := Detail(err);
    if detail.None? || detail.value == "" then baseMessage
    else baseMessage + ": " + detail.value
  }
}

=== FILE: wrappers.dfy ===
/** Optional values and fallible results, the two shapes the application's
    Rust and JavaScript code use for "maybe absent" and "may fail". */
module Wrappers {

  datatype Option<+T> = None | Some(value: T) {
    function GetOr(default: T): T {
      match this
      case Some(v) => v
      case None => default
    }

    /** `Option::or_else`: this value when present, otherwise the alternative. */
    function OrElse(other: Option<T>): Option<T> {
      if Some? then this else other
    }
  }

  datatype Result<+T, +E> = Ok(value: T) | Err(error: E)
}
